=== FILE: README.md ===
# Chess tutor: lesson checking and engine session, in Dafny

This project models the core of a single-page chess tutor. The tutor shows a
board and runs three built-in lessons. It checks each move a student drops on
the board against the lesson's scripted solution, unless free play is on. It
asks a Stockfish worker to analyse every accepted position. It turns the
engine's UCI output lines into an evaluation, a principal variation and a
verdict label.

Every handler of the component is a pure function from one state to the next.
The chess library is a parameter, `Chess.Rules`: it has a move function and a
FEN loader, and nothing is assumed about them beyond being functions. So every
lemma holds for every rules oracle.

Modules:

- `Maybe`: `Option`.
- `Text`: decimal text, `parseInt` over digits, and leftmost substring search.
- `Uci`: the UCI line grammar as the handler reads it. This covers the second
  space-separated field, the score pattern, the variation pattern, the
  mate-score mapping and the centipawn label.
- `EngineSession`: the worker's lifecycle and status. It also holds the
  analysis request, the move-time clamp and the line handler.
- `Chess`: the library as an oracle, and a game as a position plus its plies.
- `Lessons`: the lesson table.
- `Tutor`: the component state, loading a lesson, the drop handler, undo, the
  buttons, and one `Step` over every event.
- `EngineLines` and `EngineLineExamples`: what the line handler does to whole
  lines of engine output.
- `TutorProperties`: what drops, lessons and undo do over whole sessions.

The model follows the code, including these behaviours a reader might not
expect:

- **Wrong lesson.** Every drop is checked against the first lesson's solution,
  whichever lesson is loaded. Completion is also measured against the first
  lesson's solution length.
- **No expected step.** Once the history is as long as that solution, the
  expected step is missing. Every move is then refused as a mismatch, instead
  of being left unconstrained.
- **No request correlation.** Engine replies are not matched to requests. Any
  `bestmove` line sets the status to idle.
- **Promotion.** Promotion is always to a queen.
- **Mate scores.** A `mate 0` score maps to the losing sentinel -99999.
- **Variation capture.** The variation capture starts at the first `pv `
  anywhere in the line, which can be the `pv ` ending `multipv`. Stockfish
  writes a `multipv <k>` field in every analysis line that carries a
  variation, even when only one variation is searched. So with Stockfish the
  displayed variation always starts with the variation number, followed by
  the score text and the other fields (`EngineLineExamples.MultipvLine`,
  `EngineLineExamples.StockfishExample`).

## Model

| member | source | states |
|---|---|---|
| Lessons.CheckedLesson | app.jsx:98 | The lesson a drop is checked against is always the first entry of the table, and it has a solution. |
| Lessons.FindIndex | app.jsx:98 | The lesson lookup by id returns the leftmost entry with that id, or nothing when no entry has it. |
| Lessons.SolutionStep | app.jsx:107 | The expected step exists exactly when the move count is below the solution's length, and it is that solution entry. |
| Chess.NewGame | app.jsx:86 | A new game is at the standard start position with no moves played. |
| Chess.Copy | app.jsx:101 | The trial copy made from the FEN has the same position as the game and an empty history. |
| Chess.History | app.jsx:106 | The history has one SAN per ply, in the order the plies were played; its length is the step index and the completion count. |
| Chess.LoadGame | app.jsx:86-87 | A lesson position is the loaded FEN when the library accepts it, otherwise the standard start position; the history is empty. |
| Chess.Move | app.jsx:116-118 | A move fails exactly when the library refuses it. On success the position becomes the library's resulting position and the SAN is appended to the history. |
| Chess.Undo | app.jsx:143 | Undo drops the last ply and returns to the position before it; with no moves it changes nothing. |
| Chess.UndoAfterMove | app.jsx:141-145 | Undoing a successful move gives back exactly the game it was made on. |
| Chess.DryRunAgrees | app.jsx:101-102 | The trial move on a copy of the position succeeds exactly when the real move does, and it yields the same move. |
| Chess.SquarePairComparesSquares | app.jsx:110-112 | For two-character squares, the concatenated from-to strings are equal exactly when both squares are equal. |
| Text.IntToDecimal | app.jsx:78 | The decimal text of an integer, as in the `go movetime` command, is never empty and starts with a minus sign exactly when the integer is negative. |
| Text.DecimalRoundTrip | app.jsx:64 | Reading the decimal text of a natural number back with parseInt gives the number. |
| Text.IndexOf | app.jsx:59 | Substring search finds the leftmost occurrence at or after the start, and reports none only when there is no occurrence. |
| Uci.SecondField | app.jsx:56 | The second space-separated field is absent exactly when the line has no space. Otherwise it is the text from just after the first space up to the next space or the end of the line, so it never contains a space. |
| Uci.SignedAt | app.jsx:60 | The signed-integer part of the score pattern matches exactly at a digit, or at a minus sign followed by a digit. A negative value comes only after a minus sign. |
| Uci.ScoreAt | app.jsx:60 | A match at a position spells `score`, the kind word and a signed integer there. Every position where `score cp ` or `score mate ` is followed by a signed integer matches, with that kind and value. |
| Uci.ScoreMatch | app.jsx:60 | The score match is absent exactly when the pattern matches nowhere. Otherwise it is the match at the leftmost matching position. |
| Uci.PvMatch | app.jsx:61 | The variation match is absent exactly when the pattern matches nowhere. Otherwise it is the non-empty, terminator-free text after the leftmost matching `pv `. |
| Text.DigitsValue | app.jsx:64 | parseInt of a single digit is that digit's value, and a leading zero does not change the value. |
| Uci.FirstScoreIndex | app.jsx:60 | The score pattern matches at its leftmost position, and at no earlier position. |
| Uci.FirstPvIndex | app.jsx:61 | The variation pattern matches at its leftmost `pv ` whose rest runs to the end without a line terminator. |
| Uci.ScoreToCp | app.jsx:63-65 | A centipawn score is kept as is. A mate score becomes 99999 exactly when it is positive and -99999 exactly when it is not, so mate 0 counts as losing. |
| Uci.Band | app.jsx:134-138 | The label band is the number of thresholds (50, 150, 300) that the absolute evaluation reaches. |
| Uci.CpToLabel | app.jsx:132-139 | A missing evaluation gives the dash, and no present evaluation does. Otherwise the label is the one for the band of the absolute value. |
| EngineLines.LabelSymmetric | app.jsx:134 | The label depends only on the evaluation's magnitude, not on whose side it favours. |
| EngineLines.LabelMonotone | app.jsx:135-138 | A larger absolute evaluation never gets a milder label. |
| EngineLines.MateIsBlunder | app.jsx:63-65 | Every mate score, winning or losing, is labelled a blunder. |
| EngineSession.Mount | app.jsx:37-48 | When the worker is created, the status is ready and the handshake `uci` is posted. When creation fails, the status is missing, nothing is posted and the missing-engine message is shown. The evaluation and the variation are untouched either way. |
| EngineSession.AskEngine | app.jsx:72-79 | With no worker, only the unavailable message is shown. With a worker, eval and variation are cleared, the status is thinking, and exactly the position and `go movetime` commands are posted. The status never disagrees with whether a worker exists. |
| EngineSession.ClampMoveTime | app.jsx:121 | The requested move time always lies in 50..300 ms and is unchanged when already inside it. |
| EngineSession.HandleEngineMessage | app.jsx:52-70 | A line never posts a command. A `bestmove` line sets the status to idle, appends its second field to the feedback, and changes nothing else. On any other line that contains both `score` and `pv`, a score match replaces the stored eval with its centipawn value, and a variation match replaces the stored variation. A capture that fails leaves its value alone. Any other line changes nothing. |
| EngineLines.BestMoveLine | app.jsx:54-57 | A `bestmove <move> ...` line sets the status to idle, appends "Engine bestmove: <move>" on a new line of the feedback, and touches nothing else. |
| EngineLines.BareBestMoveLine | app.jsx:56 | A `bestmove` line without a second field appends the text "undefined". |
| EngineLines.PvFromFirstOccurrence | app.jsx:61 | On a single line, the variation is everything after the first `pv `, and there is none when the line has no `pv `. |
| EngineLines.SignedReadsDecimal | app.jsx:60 | The signed-integer part of the score pattern reads back any integer written in decimal, when a space follows it. |
| EngineLines.ScoreLineRoundTrip | app.jsx:59-68 | Decoding `score <cp or mate> <n> pv <moves>` stores exactly the mapped score and the moves, and leaves the rest of the state alone. |
| EngineLines.InfoLineRoundTrip | app.jsx:59-68 | An `info` line without a `multipv` field, with fields before the score and between the score and `pv`, stores exactly the mapped score and the moves and changes nothing else. The fields before the score must hold no `c` or `v`; those after it must hold no `v`. |
| EngineLineExamples.StockfishExample | app.jsx:59-68 | The Stockfish line "info depth 10 seldepth 14 multipv 1 score cp 35 nodes 12345 time 20 pv e2e4 e7e5" stores 35 and the variation "1 score cp 35 nodes 12345 time 20 pv e2e4 e7e5". |
| EngineLineExamples.MultipvLine | app.jsx:59-68 | In an `info` line with fields, then `multipv <k>`, the score, more fields and `pv <moves>`, the score is decoded as usual. The stored variation is `<k> ` followed by the score text, the fields after it and `pv <moves>`. Status and feedback are kept. |
| EngineLineExamples.TrailingMultipvLine | app.jsx:59-68 | In an `info` line whose `multipv <k>` field comes right before `pv <moves>`, the score is decoded as usual and the stored variation is `<k> pv <moves>`. Status and feedback are kept. |
| EngineLineExamples.CentipawnExample | app.jsx:59-68 | "score cp 40 pv e2e4 e7e5" stores 40 and "e2e4 e7e5", labelled a good move. |
| EngineLineExamples.MateZeroExample | app.jsx:63-65 | "score mate 0 pv e2e4" stores -99999. |
| Tutor.LoadLesson | app.jsx:84-94 | Loading succeeds exactly for an index inside the table. The game becomes the start position when the lesson's FEN is empty or `start`, and the loaded FEN otherwise. The history is cleared, the feedback shows "Hint: " and the hint (or nothing when there is no hint), and free play is on exactly when the lesson has no solution. |
| Tutor.LessonCheck | app.jsx:105-113 | Outside free play, no move passes once the solution is exhausted. If the library can play the expected step with non-empty squares, a move passes exactly when its squares match. If the library cannot play the step, a move passes exactly when its SAN equals the step. A refusal is the wrong-move refusal exactly when the step plays with non-empty squares that differ from the move's. Every other refusal, past the end of the solution included, is the solution mismatch. |
| Tutor.Completion | app.jsx:122-128 | An accepted move completes the lesson exactly when the game's history is as long as the first lesson's solution. |
| Tutor.AskEngine | app.jsx:72-79 | With a worker, the explicit position is analysed when it is non-empty and the current game's position otherwise. The analysis is cleared, the status is thinking and the feedback is kept. Without a worker, only the unavailable message is shown. The game, move list and free-play flag never change. |
| Tutor.OnDrop | app.jsx:96-130 | A refused drop changes only the feedback: "Illegal move." for an illegal move, and the wrong-move or mismatch message for a lesson refusal. An accepted drop plays the library's move and appends its SAN to the move list. A drop never changes the free-play flag or the move time, and keeps the status consistent with the worker. After an accepted drop the feedback is the completion message when the lesson is complete, otherwise empty, or the unavailable message without a worker. |
| Tutor.UndoMove | app.jsx:141-147 | Undo takes back the last ply, removes the last entry of the move list (nothing on an empty list) and shows the undo message. |
| Tutor.DeepAnalyze | app.jsx:204 | Deep analysis asks the engine about the current position for 300 ms; with a worker it clears the evaluation and the variation and keeps the feedback; without a worker it only shows the unavailable message. The game, the move list and the free-play flag never change. |
| Tutor.ToggleFreePlay | app.jsx:205 | The toggle flips the free-play flag and changes nothing else. |
| Tutor.ReceiveLine | app.jsx:41 | With a worker, an engine line has exactly the line handler's effect on the engine state and the feedback; without one it changes nothing. It never changes the game, the move list or the free-play flag, and posts nothing. |
| Tutor.Boot | app.jsx:35-50 | The tutor starts on the first lesson at the standard start position with an empty history. Either the engine is ready after the handshake and the lesson's hint shows, or the engine is missing and its message shows. |
| Tutor.Step | app.jsx:41-205 | No event changes the engine move time from its initial value, and no event creates or removes the worker. Engine lines, deep analysis and the free-play toggle leave the game and the move list alone. |
| TutorProperties.IllegalDropRefused | app.jsx:101-103 | A drop is refused as illegal exactly when the library refuses the move with a queen promotion. |
| TutorProperties.LessonStepMatching | app.jsx:105-114 | Outside free play, a legal drop is accepted only in two cases. If the expected step plays with non-empty squares, its squares must equal the drop's. Otherwise the drop's SAN must equal the step. Past the end of the solution every drop is a mismatch. With two-letter squares, acceptance means the same from-square and the same to-square. A refused drop against a playable step is always a wrong move, and otherwise always a solution mismatch, so it shows the matching message. |
| TutorProperties.FreePlayAcceptsLegal | app.jsx:105 | In free play every legal drop is accepted. |
| TutorProperties.CompletionAtSolutionLength | app.jsx:122-128 | An accepted drop completes the lesson exactly when the history then has the first lesson's solution length. |
| TutorProperties.AcceptedDropAsksEngine | app.jsx:121 | An accepted drop clears the analysis and posts the new position with the clamped move time, which is 120 ms by default. |
| TutorProperties.UndoRevertsDrop | app.jsx:141-147 | Undo right after an accepted drop restores both the game and the move list. |
| TutorProperties.CheckIgnoresLoadedLesson | app.jsx:98-112 | With the fork lesson loaded, whose first step is d5, a drop is still checked against the first lesson's e4. |
| TutorProperties.OpenLessonAcceptsLegal | app.jsx:92 | With the lesson that has no solution loaded, every legal drop is accepted. |
| TutorProperties.ReplaySolution | app.jsx:96-130 | Playing the rest of the solution's steps is accepted step by step. The last step completes the lesson, and the history ends at the solution's length. |
| TutorProperties.ScholarsMate | app.jsx:22 | From start-up, the seven scholar's-mate moves give six acceptances and then completion. |
| TutorProperties.WrongFirstMove | app.jsx:111-112 | On a fresh lesson, a first drop on other squares than e4's is refused and leaves the game untouched. |
| TutorProperties.StepPreservesConsistent | app.jsx:96-147 | Every event keeps the move list equal to the game's history, and keeps the status consistent with whether a worker exists. |
| TutorProperties.BootConsistent | app.jsx:35-50 | The start-up state is consistent. |
| TutorProperties.NoWorkerNoEngineChange | app.jsx:74 | Without a worker, no event changes the engine state. |
| TutorProperties.ThinkingOnlyOnRequest | app.jsx:72-79 | The engine starts thinking only on the deep-analysis button or an accepted drop. |

## Left out

- Rendering, the board widget, board resizing and the title and hint panel: presentation only.
- The lesson timer and stopping it on completion: it is a clock.
- The Web Worker itself: its creation is a boolean parameter of `Boot`, messages are strings posted in order, and termination on unmount is not modelled. A reply to an earlier request can therefore arrive during a later search, and the model does not track that race.
- The internals of chess.js: move legality, SAN and FEN are the `Rules` parameter. The model assumes a rejected lesson FEN leaves the start position, as the library's `load` does on failure.
- PGN and FEN import and export: they go through the clipboard and browser prompts, which are I/O.
- Dividing the evaluation by 100 for display: it is floating-point presentation.
- Tutor.Step: an out-of-range lesson index leaves the state unchanged. The source would throw a TypeError while reading the missing lesson's `fen`, but the component only ever loads lesson 0, so this case never arises.
- EngineLines.InfoLineRoundTrip: covers only `info` lines without a `multipv` field, whose fields before the score hold no `c` or `v`. Stockfish always writes `multipv`, so its lines are covered by `EngineLineExamples.MultipvLine` (field before the score) and `EngineLineExamples.TrailingMultipvLine` (field before `pv`); those require no `c` or `v` before the score, and the latter no `v` between the score and the field.
- Tutor.ReceiveLine: the conversion of non-string worker messages with `String()` is not modelled, because the model's messages are strings already.
- EngineSession.HandleEngineMessage: `parseInt` is modelled on unbounded integers, so precision loss above 2^53 is not modelled.
- Tutor.OnDrop: the second legality failure after a successful dry run is unreachable, because the rules oracle is a function of the position. The model keeps that branch, and `Chess.DryRunAgrees` shows it is never taken.
- Chess.SquarePairComparesSquares: the promotion piece is ignored in the square comparison, as in the source; the lemma holds only for two-character squares.

=== FILE: chess.dfy ===
/**
 * The chess rules library, as far as the tutor uses it. Legality, notation and
 * position encoding are not modelled: `Rules` is a parameter, a pair of
 * functions every lemma quantifies over. A position is its FEN string; a game is
 * a position together with the plies played on it, each remembering the
 * position it was played from, so that undoing restores that position exactly.
 */
module Chess {
  import opened Maybe

  /** What `move()` is given: a from/to pair with a promotion piece, or a SAN string. */
  datatype MoveInput = Coords(from: string, to: string, promotion: char) | San(text: string)

  /** What `move()` returns for a legal move: its squares, its SAN, and the position after it. */
  datatype MoveResult = MoveResult(from: string, to: string, san: string, after: string)

  /**
   * `move` interprets an input in a position (`None` for an illegal or unreadable
   * move); `load` reads a FEN (`None` when the library rejects it) and gives back
   * the position as the library then prints it.
   */
  datatype Rules = Rules(
    move: (string, MoveInput) -> Option<MoveResult>,
    load: string -> Option<string>)

  const StartFen: string := "rnbqkbnr/pppppppp/8/8/8/8/PPPPPPPP/RNBQKBNR w KQkq - 0 1"

  datatype Ply = Ply(before: string, san: string)

  datatype Game = Game(fen: string, plies: seq<Ply>)

  /** The square names of a move, concatenated as the tutor compares them (`from + to`). */
  function SquarePair(m: MoveResult): string {
    m.from + m.to
  }

  /** `new Chess()`. */
  function NewGame(): (g: Game)
    ensures g.fen == StartFen && g.plies == []
  {
    Game(StartFen, [])
  }

  /** `new Chess()` followed by `load(fen)`; a rejected FEN leaves the start position. */
  function LoadGame(rules: Rules, fen: string): (g: Game)
    ensures g.plies == []
    ensures rules.load(fen).Some? ==> g.fen == rules.load(fen).value
    ensures rules.load(fen).None? ==> g.fen == StartFen
  {
    match rules.load(fen)
    case Some(f) => Game(f, [])
    case None => NewGame()
  }

  /** `new Chess(game.fen())`: the same position with no history. */
  function Copy(g: Game): (c: Game)
    ensures c.fen == g.fen && c.plies == []
  {
    Game(g.fen, [])
  }

  /** `history()`: the SAN of every ply, in order. */
  function History(g: Game): (h: seq<string>)
    ensures |h| == |g.plies|
    ensures forall i | 0 <= i < |h| :: h[i] == g.plies[i].san
  {
    seq(|g.plies|, i requires 0 <= i < |g.plies| => g.plies[i].san)
  }

  datatype Moved = Moved(game: Game, result: MoveResult)

  /** `move(input)` on a game: `None` when the library refuses; otherwise the game one ply further. */
  function Move(rules: Rules, g: Game, input: MoveInput): (r: Option<Moved>)
    ensures r.None? <==> rules.move(g.fen, input).None?
    ensures r.Some? ==> r.value.result == rules.move(g.fen, input).value
    ensures r.Some? ==> r.value.game.fen == r.value.result.after
    ensures r.Some? ==> History(r.value.game) == History(g) + [r.value.result.san]
  {
    match rules.move(g.fen, input)
    case None => None
    case Some(m) => Some(Moved(Game(m.after, g.plies + [Ply(g.fen, m.san)]), m))
  }

  /** `undo()`: takes back the last ply; with no ply it changes nothing. */
  function Undo(g: Game): (u: Game)
    ensures g.plies == [] ==> u == g
    ensures g.plies != [] ==> History(u) == History(g)[..|g.plies| - 1]
    ensures g.plies != [] ==> u.fen == g.plies[|g.plies| - 1].before
  {
    if g.plies == [] then g
    else Game(g.plies[|g.plies| - 1].before, g.plies[..|g.plies| - 1])
  }

  /** Undoing a move just made gives back the game it was made on. */
  lemma UndoAfterMove(rules: Rules, g: Game, input: MoveInput)
    requires Move(rules, g, input).Some?
    ensures Undo(Move(rules, g, input).value.game) == g
  {
    var m := Move(rules, g, input).value;
    assert m.game.plies[..|m.game.plies| - 1] == g.plies;
  }

  /** A move tried on a copy is judged and described exactly as on the game itself. */
  lemma DryRunAgrees(rules: Rules, g: Game, input: MoveInput)
    ensures Move(rules, Copy(g), input).Some? <==> Move(rules, g, input).Some?
    ensures Move(rules, g, input).Some? ==>
      Move(rules, Copy(g), input).value.result == Move(rules, g, input).value.result
  {
  }

  /** Comparing concatenated two-letter squares is comparing the squares themselves. */
  lemma {:induction false} SquarePairComparesSquares(a: MoveResult, b: MoveResult)
    requires |a.from| == 2 && |b.from| == 2
    ensures SquarePair(a) == SquarePair(b) <==> a.from == b.from && a.to == b.to
  {
    if SquarePair(a) == SquarePair(b) {
      assert a.from == SquarePair(a)[..2] && b.from == SquarePair(b)[..2];
      assert a.to == SquarePair(a)[2..] && b.to == SquarePair(b)[2..];
    }
  }
}

=== FILE: engine.dfy ===
/**
 * The tutor's bookkeeping around the analysis engine worker: its status, the
 * last evaluation and principal variation it reported, and the commands posted
 * to it. The worker itself is asynchronous I/O; here it is a flag saying whether
 * one exists and a log of the command strings it was sent.
 */
module EngineSession {
  import opened Maybe
  import opened Text
  import opened Uci

  datatype Status = Stopped | Ready | Missing | Thinking | Idle

  datatype Engine = Engine(
    worker: bool,
    status: Status,
    eval: Option<int>,
    pv: Option<string>,
    posted: seq<string>)

  /** The engine fields together with the feedback text they may change. */
  datatype Effect = Effect(engine: Engine, feedback: string)

  /** Before the mount effect: no worker, status `stopped`. */
  const Initial: Engine := Engine(false, Stopped, None, None, [])

  const MissingMessage: string := "Engine not loaded. Please place stockfish.js in public/."

  const UnavailableMessage: string := "Engine not available."

  const HandshakeCommand: string := "uci"

  function PositionCommand(fen: string): string {
    "position fen " + fen
  }

  function GoCommand(ms: int): string {
    "go movetime " + IntToDecimal(ms)
  }

  /** A worker exists exactly while the status is one a worker can be in. */
  predicate StatusAgrees(e: Engine) {
    e.worker <==> e.status in {Ready, Thinking, Idle}
  }

  /**
   * The mount effect: `created` says whether constructing the worker succeeded.
   * On success the handshake is posted and the status becomes `ready`; on
   * failure the status becomes `missing` and the feedback explains why.
   */
  function Mount(e: Engine, feedback: string, created: bool): (r: Effect)
    ensures StatusAgrees(r.engine)
    ensures r.engine.worker == created
    ensures created ==> r.engine.posted == e.posted + [HandshakeCommand] && r.feedback == feedback
    ensures !created ==> r.engine.posted == e.posted && r.feedback == MissingMessage
    ensures created ==> r.engine.status == Ready
    ensures !created ==> r.engine.status == Missing
    ensures r.engine.eval == e.eval && r.engine.pv == e.pv
  {
    if created then
      Effect(e.(worker := true, status := Ready, posted := e.posted + [HandshakeCommand]), feedback)
    else
      Effect(e.(worker := false, status := Missing), MissingMessage)
  }

  /**
   * `askEngine`: without a worker only the feedback changes; otherwise the stale
   * evaluation and variation are cleared, the status becomes `thinking`, and the
   * position command is posted before the timed search command.
   */
  function AskEngine(e: Engine, feedback: string, pos: string, ms: int): (r: Effect)
    ensures !e.worker ==> r.engine == e && r.feedback == UnavailableMessage
    ensures e.worker ==> r.feedback == feedback
    ensures e.worker ==> r.engine.status == Thinking && r.engine.eval.None? && r.engine.pv.None?
    ensures e.worker ==> r.engine.posted == e.posted + [PositionCommand(pos), GoCommand(ms)]
    ensures r.engine.worker == e.worker
    ensures StatusAgrees(e) ==> StatusAgrees(r.engine)
  {
    if !e.worker then
      Effect(e, UnavailableMessage)
    else
      var sent := [PositionCommand(pos), GoCommand(ms)];
      Effect(e.(eval := None, pv := None, status := Thinking, posted := e.posted + sent), feedback)
  }

  /** `Math.max(50, Math.min(300, ms))`: the search time after an accepted move. */
  function ClampMoveTime(ms: int): (r: int)
    ensures 50 <= r <= 300
    ensures 50 <= ms <= 300 ==> r == ms
    ensures ms < 50 ==> r == 50
    ensures ms > 300 ==> r == 300
  {
    var upper := if ms < 300 then ms else 300;
    if upper > 50 then upper else 50
  }

  /** `handleEngineMessage` for one response line. */
  function HandleEngineMessage(e: Engine, feedback: string, msg: string): (r: Effect)
    ensures r.engine.worker == e.worker && r.engine.posted == e.posted
    // a `bestmove` line: idle, and the second field reported on a new line of the feedback
    ensures StartsWith(msg, "bestmove") ==>
      r.engine == e.(status := Idle) && r.feedback == feedback + BestMoveText(msg)
    ensures !StartsWith(msg, "bestmove") ==> r.engine.status == e.status && r.feedback == feedback
    // an analysis line: each capture that matches replaces what was stored, and one that fails leaves it
    ensures !StartsWith(msg, "bestmove") && Contains(msg, "score") && Contains(msg, "pv") ==>
      && (ScoreMatch(msg).Some? ==> r.engine.eval == Some(ScoreToCp(ScoreMatch(msg).value)))
      && (ScoreMatch(msg).None? ==> r.engine.eval == e.eval)
      && (PvMatch(msg).Some? ==> r.engine.pv == PvMatch(msg))
      && (PvMatch(msg).None? ==> r.engine.pv == e.pv)
    ensures !(Contains(msg, "score") && Contains(msg, "pv")) ==> r.engine.eval == e.eval && r.engine.pv == e.pv
  {
    if StartsWith(msg, "bestmove") then
      Effect(e.(status := Idle), feedback + BestMoveText(msg))
    else if Contains(msg, "score") && Contains(msg, "pv") then
      var eval := match ScoreMatch(msg) case Some(sc) => Some(ScoreToCp(sc)) case None => e.eval;
      var pv := match PvMatch(msg) case Some(p) => Some(p) case None => e.pv;
      Effect(e.(eval := eval, pv := pv), feedback)
    else
      Effect(e, feedback)
  }
}

=== FILE: engine_lines.dfy ===
/** What a single engine response line does to the engine state and the feedback. */
module EngineLines {
  import opened Maybe
  import opened Text
  import opened Uci
  import opened EngineSession

  /** The label depends only on the magnitude of the evaluation, not on whose favour it is. */
  lemma LabelSymmetric(cp: int)
    ensures CpToLabel(Some(cp)) == CpToLabel(Some(-cp))
  {
  }

  /** A larger magnitude never gets a milder label. */
  lemma LabelMonotone(a: int, b: int)
    requires Abs(a) <= Abs(b)
    ensures Band(Abs(a)) <= Band(Abs(b))
  {
  }

  /** Every mate score, for either side, is labelled a blunder. */
  lemma MateIsBlunder(v: int)
    ensures CpToLabel(Some(ScoreToCp(Score(Mate, v)))) == "Blunder"
  {
  }

  lemma NoSpaceBefore(t: string, rest: string)
    requires !Contains(t, " ")
    requires rest == [] || rest[0] == ' '
    ensures rest == [] ==> IndexOf(t + rest, " ", 0) == None
    ensures rest != [] ==> IndexOf(t + rest, " ", 0) == Some(|t|)
  {
    var s := t + rest;
    forall j | 0 <= j < |t|
      ensures !OccursAt(s, " ", j)
    {
      assert !OccursAt(t, " ", j);
      assert s[j..j + 1] == t[j..j + 1];
    }
    if rest != [] {
      assert s[|t|..|t| + 1] == " ";
      IndexOfIs(s, " ", 0, |t|);
    } else {
      assert s == t;
    }
  }

  /** The second field of "<head> <token><rest>" is the token, when neither head nor token has a space. */
  lemma {:induction false} SecondFieldAfter(head: string, token: string, rest: string)
    requires !Contains(head, " ") && !Contains(token, " ")
    requires rest == [] || rest[0] == ' '
    ensures SecondField(head + " " + token + rest) == Some(token)
  {
    var msg := head + " " + token + rest;
    assert msg == head + (" " + token + rest);
    NoSpaceBefore(head, " " + token + rest);
    assert msg[|head| + 1..] == token + rest;
    NoSpaceBefore(token, rest);
    if rest != [] {
      assert (token + rest)[..|token|] == token;
    } else {
      assert token + rest == token;
    }
  }

  /** The bare marker starts with itself and has no second field. */
  lemma BareMarker()
    ensures StartsWith("bestmove", "bestmove")
    ensures SecondField("bestmove") == None
  {
    var msg := "bestmove";
    forall j | 0 <= j
      ensures !OccursAt(msg, " ", j)
    {
      if j + 1 <= |msg| {
        assert msg[j..j + 1] == [msg[j]];
      }
    }
  }

  /** A `bestmove` line starts with the marker, and its second field is the token after the first space. */
  lemma BestMoveField(token: string, rest: string)
    requires !Contains(token, " ")
    requires rest == [] || rest[0] == ' '
    ensures StartsWith("bestmove " + token + rest, "bestmove")
    ensures SecondField("bestmove " + token + rest) == Some(token)
  {
    var msg := "bestmove " + token + rest;
    BareMarker();
    assert msg == "bestmove" + " " + token + rest;
    SecondFieldAfter("bestmove", token, rest);
    assert msg[..8] == "bestmove";
  }

  /**
   * A `bestmove` line sets the status to idle and appends the token after the
   * first space (up to the next space) to the feedback; the evaluation, the
   * variation and the posted commands stay as they were.
   */
  lemma BestMoveLine(e: Engine, feedback: string, token: string, rest: string)
    requires !Contains(token, " ")
    requires rest == [] || rest[0] == ' '
    ensures HandleEngineMessage(e, feedback, "bestmove " + token + rest)
      == Effect(e.(status := Idle), feedback + "\nEngine bestmove: " + token)
  {
    BestMoveField(token, rest);
  }

  /** A line that is only the marker reports the move as the text "undefined". */
  lemma BareBestMoveLine(e: Engine, feedback: string)
    ensures HandleEngineMessage(e, feedback, "bestmove")
      == Effect(e.(status := Idle), feedback + "\nEngine bestmove: undefined")
  {
    BareMarker();
  }

  /**
   * Without line terminators, the captured variation is the text after the
   * first occurrence of "pv ", and there is none when that occurrence ends the
   * line or when there is no occurrence.
   */
  lemma PvFromFirstOccurrence(s: string)
    requires NoLineTerminator(s)
    ensures IndexOf(s, "pv ", 0).None? ==> PvMatch(s).None?
    ensures IndexOf(s, "pv ", 0).Some? ==>
      var i := IndexOf(s, "pv ", 0).value;
      PvMatch(s) == if i + 3 < |s| then Some(s[i + 3..]) else None
  {
    var first := IndexOf(s, "pv ", 0);
    if first.Some? {
      var i := first.value;
      if i + 3 < |s| {
        NoLineTerminatorSuffix(s, i + 3);
        FirstPvIs(s, 0, i);
      } else {
        FirstPvNone(s, 0);
      }
    } else {
      FirstPvNone(s, 0);
    }
  }

  lemma DecimalHasNoLetter(n: int)
    ensures 'v' !in IntToDecimal(n)
    ensures 'p' !in IntToDecimal(n)
  {
    var d := IntToDecimal(n);
    if n < 0 {
      assert d == "-" + NatToDecimal(-n);
      assert forall k | 1 <= k < |d| :: d[k] == NatToDecimal(-n)[k - 1];
    }
  }

  /** A digit string followed by a space is read whole by the greedy digit run. */
  lemma {:induction false} DigitsReadBack(pre: string, digits: string, post: string)
    requires AllDigits(digits) && post != [] && post[0] == ' '
    ensures var s := pre + digits + post;
      && |pre| + |digits| < |s|
      && DigitRunEnd(s, |pre|) == |pre| + |digits|
      && s[|pre|..|pre| + |digits|] == digits
  {
    var s := pre + digits + post;
    var q := |pre|;
    assert s[q..q + |digits|] == digits;
    assert forall k | q <= k < q + |digits| :: s[k] == digits[k - q];
    assert s[q + |digits|] == ' ';
    DigitRunEndOver(s, q, q + |digits|);
  }

  /** The capture reads a non-negative decimal back when a space follows it. */
  lemma {:induction false} SignedReadsNat(pre: string, n: nat, post: string)
    requires post != [] && post[0] == ' '
    ensures SignedAt(pre + NatToDecimal(n) + post, |pre|) == Some(n)
  {
    var digits := NatToDecimal(n);
    var s := pre + digits + post;
    var q := |pre|;
    DigitsReadBack(pre, digits, post);
    assert s[q] == digits[0];
    DecimalRoundTrip(n);
  }

  /** Moving the sign from the number to the text before it. */
  lemma SignRegroup(pre: string, sign: string, digits: string, post: string)
    ensures pre + (sign + digits) + post == (pre + sign) + digits + post
  {
  }

  /** The capture reads a minus sign and a decimal back as the negated value when a space follows it. */
  lemma {:induction false} SignedReadsNegative(pre: string, m: nat, post: string)
    requires post != [] && post[0] == ' '
    ensures SignedAt(pre + ("-" + NatToDecimal(m)) + post, |pre|) == Some(-(m as int))
  {
    var digits := NatToDecimal(m);
    var s := pre + ("-" + digits) + post;
    var q := |pre|;
    SignRegroup(pre, "-", digits, post);
    DigitsReadBack(pre + "-", digits, post);
    assert s[q] == '-';
    assert s[q + 1] == digits[0];
    DecimalRoundTrip(m);
  }

  /** The greedy signed-integer capture reads back the decimal spelling of `n` when a space follows it. */
  lemma {:induction false} SignedReadsDecimal(pre: string, n: int, post: string)
    requires post != [] && post[0] == ' '
    ensures SignedAt(pre + IntToDecimal(n) + post, |pre|) == Some(n)
  {
    if n < 0 {
      assert IntToDecimal(n) == "-" + NatToDecimal(-n);
      SignedReadsNegative(pre, -n, post);
    } else {
      SignedReadsNat(pre, n, post);
    }
  }

  lemma {:induction false} DigitRunEndOver(s: string, i: nat, j: nat)
    requires i <= j < |s|
    requires forall k | i <= k < j :: IsDigit(s[k])
    requires !IsDigit(s[j])
    ensures DigitRunEnd(s, i) == j
    decreases j - i
  {
    if i < j {
      DigitRunEndOver(s, i + 1, j);
    }
  }

  /** An engine line carrying a score and a variation. */
  function ScoreLine(kind: ScoreKind, n: int, moves: string): string {
    ScorePrefix(kind, n) + ("pv " + moves)
  }

  /**
   * The score pattern's leftmost match is the first one when no "c" comes
   * before it: every "score " has a "c" right after its first letter.
   */
  lemma ScoreMatchAt(s: string, i: nat)
    requires ScoreAt(s, i).Some?
    requires 'c' !in s[..i]
    ensures ScoreMatch(s) == ScoreAt(s, i)
  {
    assert s[i] == 's' by {
      assert OccursAt(s, "score ", i);
      assert s[i] == s[i..i + 6][0];
    }
    forall j | 0 <= j < i
      ensures ScoreAt(s, j).None?
    {
      if j + 1 < i {
        assert s[j + 1] == s[..i][j + 1];
      }
      assert s[j + 1] != 'c';
      KeywordSecondLetter(s, j);
    }
    FirstScoreIs(s, 0, i);
  }

  /** Wherever "score " occurs, a "c" follows its first letter. */
  lemma KeywordSecondLetter(s: string, j: nat)
    ensures OccursAt(s, "score ", j) ==> s[j + 1] == 'c'
  {
    if OccursAt(s, "score ", j) {
      assert s[j..j + 6][1] == s[j + 1];
    }
  }

  /** The PV pattern's leftmost match is the first one when no "p" comes before it. */
  lemma PvMatchAt(s: string, i: nat)
    requires PvAt(s, i)
    requires 'p' !in s[..i]
    ensures PvMatch(s) == Some(s[i + 3..])
  {
    forall j | 0 <= j < i
      ensures !PvAt(s, j)
    {
      assert s[j] == s[..i][j];
      assert s[j] != 'p';
    }
    FirstPvIs(s, 0, i);
  }

  lemma ScoreAtFromParts(s: string, i: nat, kind: ScoreKind, n: int)
    requires OccursAt(s, "score ", i)
    requires OccursAt(s, KindWord(kind) + " ", i + 6)
    requires SignedAt(s, i + 7 + |KindWord(kind)|) == Some(n)
    ensures ScoreAt(s, i) == Some(Score(kind, n))
  {
    if kind == Mate {
      assert s[i + 6] == s[i + 6..i + 11][0] == 'm';
      assert !OccursAt(s, "cp ", i + 6);
    }
  }

  /** A word placed between two strings occurs right after the first. */
  lemma {:induction false} OccursInside(a: string, w: string, b: string)
    ensures OccursAt(a + w + b, w, |a|)
  {
    assert (a + w + b)[|a|..|a| + |w|] == w;
  }

  /** Two regroupings of a line built from six parts. */
  lemma Regroup(a: string, b: string, k: string, sp: string, d: string, p: string)
    ensures a + (b + k + sp) + d + p == a + b + ((k + sp) + d + p)
    ensures a + (b + k + sp) + d + p == (a + b) + (k + sp) + (d + p)
  {
  }

  /** The score pattern matches where "score <kind> " is followed by a decimal and a space. */
  lemma {:induction false} ScoreAtKeyword(lead: string, kind: ScoreKind, n: int, post: string)
    requires post != [] && post[0] == ' '
    ensures ScoreAt(lead + ("score " + KindWord(kind) + " ") + IntToDecimal(n) + post, |lead|) == Some(Score(kind, n))
  {
    var kw := KindWord(kind) + " ";
    var dec := IntToDecimal(n);
    var msg := lead + ("score " + KindWord(kind) + " ") + dec + post;
    Regroup(lead, "score ", KindWord(kind), " ", dec, post);
    OccursInside(lead, "score ", kw + dec + post);
    OccursInside(lead + "score ", kw, dec + post);
    SignedReadsDecimal(lead + ("score " + KindWord(kind) + " "), n, post);
    ScoreAtFromParts(msg, |lead|, kind, n);
  }

  /** A score line after `lead` is the keyword part, the decimal, and the variation part. */
  lemma ScoreLineShape(lead: string, kind: ScoreKind, n: int, moves: string)
    ensures lead + ScoreLine(kind, n, moves)
      == lead + ("score " + KindWord(kind) + " ") + IntToDecimal(n) + (" pv " + moves)
  {
  }

  /** The keyword "score" starts right after `lead`, and nothing of the line before it differs from `lead`. */
  lemma {:induction false} ScoreKeywordAfter(lead: string, rest: string)
    requires |rest| >= 5 && rest[..5] == "score"
    ensures (lead + rest)[..|lead|] == lead
    ensures Contains(lead + rest, "score")
  {
    var msg := lead + rest;
    assert msg[|lead|..|lead| + 5] == rest[..5];
    ContainsAt(msg, "score", |lead|);
  }

  lemma {:induction false} ScoreLineScore(lead: string, kind: ScoreKind, n: int, moves: string)
    requires 'c' !in lead
    ensures ScoreMatch(lead + ScoreLine(kind, n, moves)) == Some(Score(kind, n))
    ensures Contains(lead + ScoreLine(kind, n, moves), "score")
  {
    var rest := ScoreLine(kind, n, moves);
    var msg := lead + rest;
    ScoreLineShape(lead, kind, n, moves);
    ScoreAtKeyword(lead, kind, n, " pv " + moves);
    assert rest[..5] == "score";
    ScoreKeywordAfter(lead, rest);
    ScoreMatchAt(msg, |lead|);
  }

  /** The text before the variation: no "v" in it, so no "pv " starts before its end. */
  function ScorePrefix(kind: ScoreKind, n: int): string {
    "score " + KindWord(kind) + " " + IntToDecimal(n) + " "
  }

  lemma {:induction false} ScorePrefixHasNoV(kind: ScoreKind, n: int)
    ensures 'v' !in ScorePrefix(kind, n)
  {
    DecimalHasNoLetter(n);
    assert 'v' !in "score " + KindWord(kind) + " ";
  }

  lemma {:induction false} NoPvBefore(prefix: string, tail: string)
    requires 'v' !in prefix
    ensures forall j: nat | j < |prefix| :: !OccursAt(prefix + ("pv " + tail), "pv ", j)
  {
    var msg := prefix + ("pv " + tail);
    var k := |prefix|;
    forall j: nat | j < k
      ensures !OccursAt(msg, "pv ", j)
    {
      if j + 1 < k {
        assert msg[j + 1] == prefix[j + 1];
      } else {
        assert msg[j + 1] == 'p';
      }
    }
  }

  lemma {:induction false} NoTerminatorInLine(kind: ScoreKind, n: int, moves: string)
    requires NoLineTerminator(moves)
    ensures NoLineTerminator(ScorePrefix(kind, n) + ("pv " + moves))
  {
    var prefix := ScorePrefix(kind, n);
    var msg := prefix + ("pv " + moves);
    DecimalHasNoLetter(n);
    forall i | 0 <= i < |msg|
      ensures !IsLineTerminator(msg[i])
    {
      if i >= |prefix| + 3 {
        assert msg[i] == moves[i - (|prefix| + 3)];
      } else if i >= |prefix| {
        assert msg[i] in "pv ";
      } else {
        assert msg[i] == prefix[i];
        assert prefix[i] in prefix;
        assert prefix == "score " + KindWord(kind) + " " + (IntToDecimal(n) + " ");
        NotTerminator(prefix[i], "score " + KindWord(kind) + " ", IntToDecimal(n) + " ");
      }
    }
  }

  lemma NotTerminator(c: char, a: string, b: string)
    requires c in a + b
    requires forall k | 0 <= k < |a| :: 'a' <= a[k] <= 'z' || a[k] == ' '
    requires forall k | 0 <= k < |b| :: '-' <= b[k] <= '9' || b[k] == ' '
    ensures !IsLineTerminator(c)
  {
  }

  /** After a prefix without "v", the variation is everything after the "pv " that follows it. */
  lemma {:induction false} VariationAfter(prefix: string, moves: string)
    requires 'v' !in prefix && moves != []
    requires NoLineTerminator(prefix + ("pv " + moves))
    ensures PvMatch(prefix + ("pv " + moves)) == Some(moves)
    ensures Contains(prefix + ("pv " + moves), "pv")
  {
    var msg := prefix + ("pv " + moves);
    var k := |prefix|;
    NoPvBefore(prefix, moves);
    assert msg[k..k + 3] == "pv ";
    assert msg[k..k + 2] == "pv";
    IndexOfIs(msg, "pv ", 0, k);
    ContainsAt(msg, "pv", k);
    assert msg[k + 3..] == moves;
    PvFromFirstOccurrence(msg);
  }

  lemma {:induction false} ScoreLineVariation(kind: ScoreKind, n: int, moves: string)
    requires moves != [] && NoLineTerminator(moves)
    ensures PvMatch(ScoreLine(kind, n, moves)) == Some(moves)
    ensures Contains(ScoreLine(kind, n, moves), "pv")
  {
    ScorePrefixHasNoV(kind, n);
    NoTerminatorInLine(kind, n, moves);
    VariationAfter(ScorePrefix(kind, n), moves);
  }

  /**
   * A line "score <kind> <n> pv <moves>" stores the score's centipawn value
   * (mate scores as the signed sentinel) and the moves as the variation,
   * leaving status, worker, posted commands and feedback untouched.
   */
  lemma ScoreLineRoundTrip(e: Engine, feedback: string, kind: ScoreKind, n: int, moves: string)
    requires moves != [] && NoLineTerminator(moves)
    ensures HandleEngineMessage(e, feedback, ScoreLine(kind, n, moves))
      == Effect(e.(eval := Some(ScoreToCp(Score(kind, n))), pv := Some(moves)), feedback)
  {
    var msg := ScoreLine(kind, n, moves);
    assert msg[0] == 's';
    assert !StartsWith(msg, "bestmove") by {
      assert msg[..8][0] == 's';
    }
    ScoreLineScore("", kind, n, moves);
    assert "" + msg == msg;
    ScoreLineVariation(kind, n, moves);
  }
  lemma NoLineTerminatorConcat(a: string, b: string)
    requires NoLineTerminator(a) && NoLineTerminator(b)
    ensures NoLineTerminator(a + b)
  {
    forall k | 0 <= k < |a + b|
      ensures !IsLineTerminator((a + b)[k])
    {
      if k >= |a| {
        assert (a + b)[k] == b[k - |a|];
      }
    }
  }

  /** Removing the text after a line leaves a line. */
  lemma NoLineTerminatorPrefix(a: string, b: string)
    requires NoLineTerminator(a + b)
    ensures NoLineTerminator(a)
  {
    assert forall k | 0 <= k < |a| :: a[k] == (a + b)[k];
  }

  /**
   * An analysis line: a lead such as "info depth 10 seldepth 14 ", the score,
   * further fields such as "nodes 12345 nps 600000 time 20 ", and the
   * variation. Stockfish puts its multipv field in the lead or in the fields
   * after the score.
   */
  function InfoLine(lead: string, kind: ScoreKind, n: int, mid: string, moves: string): string {
    lead + ScorePrefix(kind, n) + mid + ("pv " + moves)
  }

  /** Two groupings of the same five parts. */
  lemma InfoRegroup(lead: string, kw: string, dec: string, mid: string, tail: string)
    ensures lead + (kw + dec + " ") + mid + tail == lead + kw + dec + (" " + mid + tail)
  {
  }

  /** Grouping the parts after the lead. */
  lemma TailRegroup(lead: string, head: string, dec: string, rest: string)
    ensures lead + head + dec + rest == lead + (head + dec + rest)
  {
  }

  /** After a lead without "c", the score is the one spelled out right after the lead. */
  lemma {:induction false} ScoreAfterLead(lead: string, kind: ScoreKind, n: int, rest: string)
    requires 'c' !in lead && rest != [] && rest[0] == ' '
    ensures ScoreMatch(lead + ("score " + KindWord(kind) + " ") + IntToDecimal(n) + rest) == Some(Score(kind, n))
    ensures Contains(lead + ("score " + KindWord(kind) + " ") + IntToDecimal(n) + rest, "score")
  {
    var head := "score " + KindWord(kind) + " ";
    var msg := lead + head + IntToDecimal(n) + rest;
    var tail := head + IntToDecimal(n) + rest;
    ScoreAtKeyword(lead, kind, n, rest);
    TailRegroup(lead, head, IntToDecimal(n), rest);
    assert tail[..5] == "score";
    ScoreKeywordAfter(lead, tail);
    ScoreMatchAt(msg, |lead|);
  }

  /** The score of an analysis line is the one after its lead, when the lead has no "c". */
  lemma {:induction false} InfoLineScore(lead: string, kind: ScoreKind, n: int, mid: string, moves: string)
    requires 'c' !in lead
    ensures ScoreMatch(InfoLine(lead, kind, n, mid, moves)) == Some(Score(kind, n))
    ensures Contains(InfoLine(lead, kind, n, mid, moves), "score")
  {
    var kw := "score " + KindWord(kind) + " ";
    assert ScorePrefix(kind, n) == kw + IntToDecimal(n) + " ";
    InfoRegroup(lead, kw, IntToDecimal(n), mid, "pv " + moves);
    ScoreAfterLead(lead, kind, n, " " + mid + ("pv " + moves));
  }

  /** The variation of an analysis line is its moves, when neither the lead nor the fields after the score have a "v". */
  lemma {:induction false} InfoLineVariation(lead: string, kind: ScoreKind, n: int, mid: string, moves: string)
    requires 'v' !in lead && 'v' !in mid && moves != []
    requires NoLineTerminator(lead) && NoLineTerminator(mid) && NoLineTerminator(moves)
    ensures PvMatch(InfoLine(lead, kind, n, mid, moves)) == Some(moves)
    ensures Contains(InfoLine(lead, kind, n, mid, moves), "pv")
  {
    var prefix := lead + ScorePrefix(kind, n) + mid;
    ScorePrefixHasNoV(kind, n);
    assert 'v' !in prefix;
    NoTerminatorInLine(kind, n, moves);
    NoLineTerminatorPrefix(ScorePrefix(kind, n), "pv " + moves);
    assert NoLineTerminator("pv ");
    NoLineTerminatorConcat(lead, ScorePrefix(kind, n));
    NoLineTerminatorConcat(lead + ScorePrefix(kind, n), mid);
    NoLineTerminatorConcat("pv ", moves);
    NoLineTerminatorConcat(prefix, "pv " + moves);
    VariationAfter(prefix, moves);
  }

  /**
   * An analysis line without a multipv field, with fields before the score and
   * between the score and the variation, stores the score's centipawn value and
   * the moves, and changes nothing else.
   */
  lemma InfoLineRoundTrip(e: Engine, feedback: string, lead: string, kind: ScoreKind, n: int, mid: string, moves: string)
    requires StartsWith(lead, "info ")
    requires 'c' !in lead && 'v' !in lead && 'v' !in mid && moves != []
    requires NoLineTerminator(lead) && NoLineTerminator(mid) && NoLineTerminator(moves)
    ensures HandleEngineMessage(e, feedback, InfoLine(lead, kind, n, mid, moves))
      == Effect(e.(eval := Some(ScoreToCp(Score(kind, n))), pv := Some(moves)), feedback)
  {
    var msg := InfoLine(lead, kind, n, mid, moves);
    assert msg[0] == lead[0] == 'i';
    assert !StartsWith(msg, "bestmove") by {
      assert msg[..8][0] == 'i';
    }
    InfoLineScore(lead, kind, n, mid, moves);
    InfoLineVariation(lead, kind, n, mid, moves);
  }
}

module EngineLineExamples {
  import opened Maybe
  import opened Text
  import opened Uci
  import opened EngineSession
  import opened EngineLines

  /**
   * The `multipv <k>` field. Stockfish writes it in every analysis line that
   * carries a variation, even when only one variation is searched.
   */
  function MultipvField(k: nat): string {
    "multipv " + NatToDecimal(k) + " "
  }

  /** The field holds lower-case letters, digits and spaces only. */
  lemma {:induction false} MultipvFieldPlain(k: nat)
    ensures 'c' !in MultipvField(k)
    ensures NoLineTerminator(MultipvField(k))
  {
    var digits := NatToDecimal(k);
    var field := MultipvField(k);
    assert field == "multipv " + (digits + " ");
    forall i | 0 <= i < |field|
      ensures field[i] != 'c' && !IsLineTerminator(field[i])
    {
      if 8 <= i < 8 + |digits| {
        assert field[i] == digits[i - 8];
        assert IsDigit(digits[i - 8]);
      }
    }
  }

  /**
   * When the text before a multipv field has no "v", the variation pattern's
   * leftmost match is the "pv " that ends "multipv": the capture is the
   * variation number and everything after it.
   */
  lemma {:induction false} MultipvVariation(before: string, k: nat, after: string)
    requires 'v' !in before
    requires NoLineTerminator(before) && NoLineTerminator(after)
    ensures PvMatch(before + MultipvField(k) + after) == Some(NatToDecimal(k) + " " + after)
    ensures Contains(before + MultipvField(k) + after, "pv")
  {
    var digits := NatToDecimal(k);
    var tail := digits + " " + after;
    var msg := before + MultipvField(k) + after;
    assert msg == (before + "multi") + ("pv " + tail);
    MultipvFieldPlain(k);
    NoLineTerminatorConcat(before, MultipvField(k));
    NoLineTerminatorConcat(before + MultipvField(k), after);
    assert 'v' !in before + "multi";
    VariationAfter(before + "multi", tail);
  }

  /** The text from the score to the end of an analysis line is a line. */
  lemma {:induction false} ScoreToEndIsLine(kind: ScoreKind, n: int, mid: string, moves: string)
    requires NoLineTerminator(mid) && NoLineTerminator(moves)
    ensures NoLineTerminator(ScorePrefix(kind, n) + mid + ("pv " + moves))
  {
    NoTerminatorInLine(kind, n, moves);
    NoLineTerminatorPrefix(ScorePrefix(kind, n), "pv " + moves);
    assert NoLineTerminator("pv ");
    NoLineTerminatorConcat("pv ", moves);
    NoLineTerminatorConcat(ScorePrefix(kind, n), mid);
    NoLineTerminatorConcat(ScorePrefix(kind, n) + mid, "pv " + moves);
  }

  /**
   * A current Stockfish analysis line, "info depth .. seldepth .. multipv <k>
   * score <kind> <n> nodes .. pv <moves>". The score is read as usual. The
   * variation pattern's leftmost match is the "pv " ending "multipv", so the
   * stored variation is the variation number followed by the score text, the
   * fields after it and "pv <moves>". Status and feedback are kept.
   */
  lemma MultipvLine(e: Engine, feedback: string, lead: string, k: nat, kind: ScoreKind, n: int, mid: string, moves: string)
    requires StartsWith(lead, "info ")
    requires 'c' !in lead && 'v' !in lead
    requires NoLineTerminator(lead) && NoLineTerminator(mid) && NoLineTerminator(moves)
    ensures HandleEngineMessage(e, feedback, InfoLine(lead + MultipvField(k), kind, n, mid, moves))
      == Effect(e.(eval := Some(ScoreToCp(Score(kind, n))),
                   pv := Some(NatToDecimal(k) + " " + (ScorePrefix(kind, n) + mid + ("pv " + moves)))), feedback)
  {
    var after := ScorePrefix(kind, n) + mid + ("pv " + moves);
    var msg := InfoLine(lead + MultipvField(k), kind, n, mid, moves);
    assert msg == lead + MultipvField(k) + after;
    assert msg[0] == lead[0] == 'i';
    assert !StartsWith(msg, "bestmove") by {
      assert msg[..8][0] == 'i';
    }
    MultipvFieldPlain(k);
    assert 'c' !in lead + MultipvField(k);
    InfoLineScore(lead + MultipvField(k), kind, n, mid, moves);
    ScoreToEndIsLine(kind, n, mid, moves);
    MultipvVariation(lead, k, after);
  }

  /** An analysis line, which starts with "info ", is not a `bestmove` line. */
  lemma InfoIsNotBestMove(lead: string, rest: string)
    requires StartsWith(lead, "info ")
    ensures !StartsWith(lead + rest, "bestmove")
  {
    assert (lead + rest)[0] == lead[0] == 'i';
    assert |lead + rest| >= 8 ==> (lead + rest)[..8][0] == 'i';
  }

  /** Moving the multipv field out of the fields after the score. */
  lemma TrailingRegroup(lead: string, prefix: string, mid: string, field: string, tail: string)
    ensures lead + prefix + (mid + field) + tail == (lead + prefix + mid) + field + tail
  {
  }

  /** In the older layout, the variation is the multipv number followed by "pv <moves>". */
  lemma {:induction false} TrailingVariation(lead: string, kind: ScoreKind, n: int, mid: string, k: nat, moves: string)
    requires 'v' !in lead && 'v' !in mid
    requires NoLineTerminator(lead) && NoLineTerminator(mid) && NoLineTerminator(moves)
    ensures PvMatch(InfoLine(lead, kind, n, mid + MultipvField(k), moves)) == Some(NatToDecimal(k) + " " + ("pv " + moves))
    ensures Contains(InfoLine(lead, kind, n, mid + MultipvField(k), moves), "pv")
  {
    var before := lead + ScorePrefix(kind, n) + mid;
    TrailingRegroup(lead, ScorePrefix(kind, n), mid, MultipvField(k), "pv " + moves);
    ScorePrefixHasNoV(kind, n);
    assert 'v' !in before;
    NoTerminatorInLine(kind, n, moves);
    NoLineTerminatorPrefix(ScorePrefix(kind, n), "pv " + moves);
    NoLineTerminatorConcat(lead, ScorePrefix(kind, n));
    NoLineTerminatorConcat(lead + ScorePrefix(kind, n), mid);
    assert NoLineTerminator("pv ");
    NoLineTerminatorConcat("pv ", moves);
    MultipvVariation(before, k, "pv " + moves);
  }

  /**
   * The older layout, with the multipv field right before "pv": the score is
   * read as usual and the stored variation is "<k> pv <moves>".
   */
  lemma TrailingMultipvLine(e: Engine, feedback: string, lead: string, kind: ScoreKind, n: int, mid: string, k: nat, moves: string)
    requires StartsWith(lead, "info ")
    requires 'c' !in lead && 'v' !in lead && 'v' !in mid
    requires NoLineTerminator(lead) && NoLineTerminator(mid) && NoLineTerminator(moves)
    ensures HandleEngineMessage(e, feedback, InfoLine(lead, kind, n, mid + MultipvField(k), moves))
      == Effect(e.(eval := Some(ScoreToCp(Score(kind, n))), pv := Some(NatToDecimal(k) + " " + ("pv " + moves))), feedback)
  {
    var msg := InfoLine(lead, kind, n, mid + MultipvField(k), moves);
    assert msg == lead + (ScorePrefix(kind, n) + (mid + MultipvField(k)) + ("pv " + moves));
    InfoIsNotBestMove(lead, ScorePrefix(kind, n) + (mid + MultipvField(k)) + ("pv " + moves));
    InfoLineScore(lead, kind, n, mid + MultipvField(k), moves);
    TrailingVariation(lead, kind, n, mid, k, moves);
  }

  /** The decimal spelling of forty. */
  lemma Forty()
    ensures IntToDecimal(40) == "40"
  {
    assert NatToDecimal(4) == "4";
  }

  /** The sample centipawn line assembled from its parts. */
  lemma CentipawnSpelling()
    ensures ScoreLine(Cp, 40, "e2e4 e7e5") == "score cp 40 pv e2e4 e7e5"
  {
    Forty();
    assert ScorePrefix(Cp, 40) == "score cp 40 ";
  }

  /** A centipawn score of 40 is stored as 40 and labelled a good move. */
  lemma CentipawnExample(e: Engine, feedback: string)
    ensures var r := HandleEngineMessage(e, feedback, "score cp 40 pv e2e4 e7e5");
      r.engine.eval == Some(40) && r.engine.pv == Some("e2e4 e7e5") && CpToLabel(r.engine.eval) == "Good move"
  {
    assert NoLineTerminator("e2e4 e7e5");
    ScoreLineRoundTrip(e, feedback, Cp, 40, "e2e4 e7e5");
    CentipawnSpelling();
    assert Band(40) == 0;
  }

  /** The sample mate line assembled from its parts. */
  lemma MateZeroSpelling()
    ensures ScoreLine(Mate, 0, "e2e4") == "score mate 0 pv e2e4"
  {
    assert IntToDecimal(0) == "0";
    assert ScorePrefix(Mate, 0) == "score mate 0 ";
  }

  /** "mate 0" is stored as the losing sentinel, like any mate score that is not positive. */
  lemma MateZeroExample(e: Engine, feedback: string)
    ensures HandleEngineMessage(e, feedback, "score mate 0 pv e2e4").engine.eval == Some(-MateScore)
  {
    assert NoLineTerminator("e2e4");
    ScoreLineRoundTrip(e, feedback, Mate, 0, "e2e4");
    MateZeroSpelling();
  }

  /** The decimal spelling of thirty-five. */
  lemma ThirtyFive()
    ensures IntToDecimal(35) == "35"
  {
    assert NatToDecimal(3) == "3";
  }

  /** The parts of the sample analysis line meet the conditions of `MultipvLine`. */
  lemma SampleParts()
    ensures StartsWith("info depth 10 seldepth 14 ", "info ")
    ensures 'c' !in "info depth 10 seldepth 14 " && 'v' !in "info depth 10 seldepth 14 "
    ensures NoLineTerminator("info depth 10 seldepth 14 ") && NoLineTerminator("nodes 12345 time 20 ")
    ensures NoLineTerminator("e2e4 e7e5")
  {
  }

  /** The lead of the sample line, up to the score. */
  lemma SampleLead()
    ensures NatToDecimal(1) == "1"
    ensures "info depth 10 seldepth 14 " + MultipvField(1) == "info depth 10 seldepth 14 multipv 1 "
  {
    assert NatToDecimal(1) == "1";
    assert MultipvField(1) == "multipv 1 ";
  }

  /** Splitting an analysis line after its lead. */
  lemma InfoLineAfterLead(lead: string, kind: ScoreKind, n: int, mid: string, moves: string)
    ensures InfoLine(lead, kind, n, mid, moves) == lead + (ScorePrefix(kind, n) + mid + ("pv " + moves))
  {
  }

  /** The text of the sample line from the score on, spelled out. */
  lemma SampleTail(head: string)
    ensures head + (ScorePrefix(Cp, 35) + "nodes 12345 time 20 " + ("pv " + "e2e4 e7e5"))
      == head + "score cp 35 " + "nodes 12345 time 20 " + "pv e2e4 e7e5"
  {
    ThirtyFive();
    assert ScorePrefix(Cp, 35) == "score cp 35 ";
    assert "pv " + "e2e4 e7e5" == "pv e2e4 e7e5";
  }

  /** The sample line's lead and score. */
  lemma SampleJoinScore()
    ensures "info depth 10 seldepth 14 multipv 1 " + "score cp 35 " == "info depth 10 seldepth 14 multipv 1 score cp 35 "
  {
  }

  /** The sample line up to the variation. */
  lemma SampleJoinFields()
    ensures "info depth 10 seldepth 14 multipv 1 score cp 35 " + "nodes 12345 time 20 "
      == "info depth 10 seldepth 14 multipv 1 score cp 35 nodes 12345 time 20 "
  {
  }

  /** The whole sample line. */
  lemma SampleJoinMoves()
    ensures "info depth 10 seldepth 14 multipv 1 score cp 35 nodes 12345 time 20 " + "pv e2e4 e7e5"
      == "info depth 10 seldepth 14 multipv 1 score cp 35 nodes 12345 time 20 pv e2e4 e7e5"
  {
  }

  /** The sample line assembled from its parts. */
  lemma SampleSpelling()
    ensures InfoLine("info depth 10 seldepth 14 " + MultipvField(1), Cp, 35, "nodes 12345 time 20 ", "e2e4 e7e5")
      == "info depth 10 seldepth 14 multipv 1 score cp 35 nodes 12345 time 20 pv e2e4 e7e5"
  {
    var lead := "info depth 10 seldepth 14 " + MultipvField(1);
    InfoLineAfterLead(lead, Cp, 35, "nodes 12345 time 20 ", "e2e4 e7e5");
    SampleLead();
    SampleTail(lead);
    SampleJoinScore();
    SampleJoinFields();
    SampleJoinMoves();
  }

  /** The stored variation's number and score. */
  lemma VariationJoinScore()
    ensures "1 " + "score cp 35 " == "1 score cp 35 "
  {
  }

  /** The stored variation up to its moves. */
  lemma VariationJoinFields()
    ensures "1 score cp 35 " + "nodes 12345 time 20 " == "1 score cp 35 nodes 12345 time 20 "
  {
  }

  /** The whole stored variation. */
  lemma VariationJoinMoves()
    ensures "1 score cp 35 nodes 12345 time 20 " + "pv e2e4 e7e5" == "1 score cp 35 nodes 12345 time 20 pv e2e4 e7e5"
  {
  }

  /** The variation stored for the sample line, assembled from its parts. */
  lemma SampleVariation()
    ensures NatToDecimal(1) + " " + (ScorePrefix(Cp, 35) + "nodes 12345 time 20 " + ("pv " + "e2e4 e7e5"))
      == "1 score cp 35 nodes 12345 time 20 pv e2e4 e7e5"
  {
    SampleLead();
    assert NatToDecimal(1) + " " == "1 ";
    SampleTail(NatToDecimal(1) + " ");
    VariationJoinScore();
    VariationJoinFields();
    VariationJoinMoves();
  }

  /**
   * A Stockfish analysis line as the engine prints it, with "multipv 1" before
   * the score: the evaluation is 35 and the stored variation is everything
   * after "multipv ", not just the moves.
   */
  lemma StockfishExample(e: Engine, feedback: string)
    ensures var r := HandleEngineMessage(e, feedback, "info depth 10 seldepth 14 multipv 1 score cp 35 nodes 12345 time 20 pv e2e4 e7e5");
      r.engine.eval == Some(35) && r.engine.pv == Some("1 score cp 35 nodes 12345 time 20 pv e2e4 e7e5")
  {
    SampleParts();
    MultipvLine(e, feedback, "info depth 10 seldepth 14 ", 1, Cp, 35, "nodes 12345 time 20 ", "e2e4 e7e5");
    SampleSpelling();
    SampleVariation();
  }
}

=== FILE: lessons.dfy ===
/** The tutor's fixed lesson table and the lookups made on it. */
module Lessons {
  import opened Maybe

  /** `fen` is a FEN or the marker "start"; `solution` is absent (`null`) for free-play lessons. */
  datatype Lesson = Lesson(
    id: int,
    title: string,
    fen: string,
    solution: Option<seq<string>>,
    hint: string)

  const Table: seq<Lesson> := [
    Lesson(1, "Scholar's Mate", "start",
      Some(["e4", "e5", "Bc4", "Nc6", "Qh5", "Nf6", "Qxf7#"]),
      "Coordinate queen & bishop toward f7."),
    Lesson(2, "Opening Principles", "start", None,
      "Develop knights/bishops, control center, castle early."),
    Lesson(3, "Tactical Fork", "r1bqkbnr/pppp1ppp/2n5/4p3/3P4/2N5/PPP1PPPP/R1BQKBNR w KQkq - 2 3",
      Some(["d5", "exd4", "Nb5"]),
      "Find the knight jump that attacks two pieces.")
  ]

  /** Index of the first lesson with the given id at or after `from` (`Array.prototype.find`). */
  function FindIndex(t: seq<Lesson>, id: int, from: nat): (r: Option<nat>)
    decreases |t| - from
    ensures r.Some? ==> from <= r.value < |t| && t[r.value].id == id
    ensures r.Some? ==> forall j | from <= j < r.value :: t[j].id != id
    ensures r.None? ==> forall j | from <= j < |t| :: t[j].id != id
  {
    if from >= |t| then None
    else if t[from].id == id then Some(from)
    else FindIndex(t, id, from + 1)
  }

  /**
   * The lesson the move check consults: the one found by the id of the first
   * lesson, whichever lesson is loaded. That is always the first lesson.
   */
  function CheckedLesson(): (l: Lesson)
    ensures l == Table[0]
    ensures l.solution.Some?
  {
    var i := FindIndex(Table, Table[0].id, 0);
    Table[i.value]
  }

  /** `solution[step]`, `None` (`undefined`) past its end. */
  function SolutionStep(solution: seq<string>, step: nat): (r: Option<string>)
    ensures r.Some? <==> step < |solution|
    ensures r.Some? ==> r.value == solution[step]
  {
    if step < |solution| then Some(solution[step]) else None
  }
}

=== FILE: maybe.dfy ===
/** An optional value: JavaScript's `null` / `undefined` next to a present value. */
module Maybe {

  datatype Option<+T> = None | Some(value: T) {

    /** The present value, or `default` when absent. */
    function GetOr(default: T): T {
      match this
      case Some(v) => v
      case None => default
    }
  }
}

=== FILE: text.dfy ===
/**
 * The few string primitives the tutor relies on, with the meaning JavaScript
 * gives them: `startsWith`, `includes`/`indexOf`, runs of decimal digits,
 * `parseInt(_, 10)` on such a run, and `String(n)` for an integer.
 */
module Text {
  import opened Maybe

  predicate IsDigit(c: char) {
    '0' <= c <= '9'
  }

  predicate AllDigits(s: string) {
    forall i | 0 <= i < |s| :: IsDigit(s[i])
  }

  function DigitValue(c: char): (d: nat)
    requires IsDigit(c)
    ensures d < 10
  {
    c as int - '0' as int
  }

  function DigitChar(d: nat): (c: char)
    requires d < 10
    ensures IsDigit(c) && DigitValue(c) == d
  {
    (d + '0' as int) as char
  }

  /** `parseInt(s, 10)` for a string made only of decimal digits. */
  function DigitsValue(s: string): (v: nat)
    requires AllDigits(s)
    ensures |s| == 1 ==> v == DigitValue(s[0])
    ensures |s| > 0 && s[0] == '0' ==> v == DigitsValue(s[1..])
  {
    if s == [] then 0
    else
      var init := s[..|s| - 1];
      assert |s| > 1 ==> init[1..] == s[1..][..|s| - 2];
      DigitsValue(init) * 10 + DigitValue(s[|s| - 1])
  }

  /** `String(n)` for a natural number: its canonical decimal spelling. */
  function NatToDecimal(n: nat): (s: string)
    ensures |s| > 0 && AllDigits(s)
    ensures |s| > 1 ==> s[0] != '0'
  {
    if n < 10 then [DigitChar(n)] else NatToDecimal(n / 10) + [DigitChar(n % 10)]
  }

  /** `String(n)` for an integer. */
  function IntToDecimal(n: int): (s: string)
    ensures |s| > 0
    ensures n < 0 <==> s[0] == '-'
  {
    if n < 0 then "-" + NatToDecimal(-n) else NatToDecimal(n)
  }

  /** Reading back the decimal spelling of `n` gives `n`. */
  lemma {:induction false} DecimalRoundTrip(n: nat)
    ensures DigitsValue(NatToDecimal(n)) == n
  {
    var s := NatToDecimal(n);
    if n >= 10 {
      DecimalRoundTrip(n / 10);
      assert s[..|s| - 1] == NatToDecimal(n / 10);
    }
  }

  /** `sub` occurs in `s` starting at index `i`. */
  predicate OccursAt(s: string, sub: string, i: nat) {
    i + |sub| <= |s| && s[i..i + |sub|] == sub
  }

  /** `s.startsWith(p)`. */
  predicate StartsWith(s: string, p: string) {
    OccursAt(s, p, 0)
  }

  /** `s.indexOf(sub, from)`, with `None` for -1: the leftmost occurrence at or after `from`. */
  function IndexOf(s: string, sub: string, from: nat): (r: Option<nat>)
    decreases |s| - from
    ensures r.Some? ==> from <= r.value && OccursAt(s, sub, r.value)
    ensures r.Some? ==> forall j | from <= j < r.value :: !OccursAt(s, sub, j)
    ensures r.None? ==> forall j | from <= j :: !OccursAt(s, sub, j)
  {
    if from + |sub| > |s| then None
    else if OccursAt(s, sub, from) then Some(from)
    else IndexOf(s, sub, from + 1)
  }

  /** `s.includes(sub)`. */
  predicate Contains(s: string, sub: string) {
    IndexOf(s, sub, 0).Some?
  }

  /** An occurrence with none before it is the one `indexOf` finds. */
  lemma IndexOfIs(s: string, sub: string, from: nat, k: nat)
    requires from <= k && OccursAt(s, sub, k)
    requires forall j | from <= j < k :: !OccursAt(s, sub, j)
    ensures IndexOf(s, sub, from) == Some(k)
  {
  }

  /** Any occurrence makes `includes` true. */
  lemma ContainsAt(s: string, sub: string, k: nat)
    requires OccursAt(s, sub, k)
    ensures Contains(s, sub)
  {
  }

  /** The end of the longest run of decimal digits starting at `i` (what a greedy `\d*` consumes). */
  function DigitRunEnd(s: string, i: nat): (j: nat)
    requires i <= |s|
    decreases |s| - i
    ensures i <= j <= |s|
    ensures AllDigits(s[i..j])
    ensures j < |s| ==> !IsDigit(s[j])
  {
    if i < |s| && IsDigit(s[i]) then DigitRunEnd(s, i + 1) else i
  }
}

=== FILE: tutor.dfy ===
/**
 * The tutor component's state and its handlers: loading a lesson, dropping a
 * piece (dry run, lesson check, application, engine request, completion),
 * undoing, asking for a deep analysis, toggling free play, and receiving an
 * engine line. Each handler is a pure function from one state to the next.
 */
module Tutor {
  import opened Maybe
  import opened Chess
  import opened Lessons
  import opened EngineSession

  /** Initial value of the engine search time, in milliseconds; nothing changes it. */
  const DefaultMoveTimeMs: int := 120

  /** Search time of the "Deep Analyze" button. */
  const DeepMoveTimeMs: int := 300

  /** Every drop is a queen promotion when it promotes at all. */
  const PromotionPiece: char := 'q'

  const IllegalMessage: string := "Illegal move."
  /** "This is not the expected move in this lesson; try the planned move or enable free play." */
  const WrongMoveMessage: string := "هذه ليست الحركة المتوقعة فهاد الدرس. جرّب الحركة المخططة أو فعّل التدريب الحر."
  /** "The move does not match the lesson's solution." */
  const MismatchMessage: string := "الحركة لا تطابق حل الدرس."
  /** "Lesson complete! Well done." */
  const CompleteMessage: string := "تم إكمال الدرس! أحسنت."
  const UndoMessage: string := "Undid last move."

  /** Why a drop was refused, or how it was taken. */
  datatype Outcome = IllegalMove | WrongLessonMove | SolutionMismatch | Accepted | LessonComplete {
    /** What `onDrop` returns to the board. */
    predicate Ok() {
      Accepted? || LessonComplete?
    }
  }

  /**
   * `game` is the authoritative rules object; `history` is the displayed move
   * list, kept apart from the game's own history as in the component.
   */
  datatype Session = Session(
    game: Game,
    history: seq<string>,
    feedback: string,
    allowAnyMove: bool,
    engine: Engine,
    engineTimeMs: int)

  datatype Drop = Drop(outcome: Outcome, session: Session)

  /** The component's initial state, before its mount effects run. */
  const Fresh: Session := Session(NewGame(), [], "", false, Initial, DefaultMoveTimeMs)

  /** `fenToAnalyze || game.fen()`: `None` and "" are both falsy. */
  function AnalysedPosition(s: Session, fenToAnalyze: Option<string>): string {
    if fenToAnalyze.Some? && fenToAnalyze.value != "" then fenToAnalyze.value else s.game.fen
  }

  /** `askEngine(fenToAnalyze, ms)`. */
  function AskEngine(s: Session, fenToAnalyze: Option<string>, ms: int): (r: Session)
    ensures r.game == s.game && r.history == s.history && r.allowAnyMove == s.allowAnyMove
    ensures r.engineTimeMs == s.engineTimeMs
    // `fenToAnalyze || game.fen()`: an absent or empty position falls back to the current game
    ensures s.engine.worker && fenToAnalyze.Some? && fenToAnalyze.value != "" ==>
      r.engine.posted == s.engine.posted + [PositionCommand(fenToAnalyze.value), GoCommand(ms)]
    ensures s.engine.worker && (fenToAnalyze.None? || fenToAnalyze.value == "") ==>
      r.engine.posted == s.engine.posted + [PositionCommand(s.game.fen), GoCommand(ms)]
    ensures s.engine.worker ==> r.engine.status == Thinking && r.engine.eval.None? && r.engine.pv.None?
    ensures s.engine.worker ==> r.feedback == s.feedback
    ensures !s.engine.worker ==> r.engine == s.engine && r.feedback == UnavailableMessage
  {
    var effect := EngineSession.AskEngine(s.engine, s.feedback, AnalysedPosition(s, fenToAnalyze), ms);
    s.(engine := effect.engine, feedback := effect.feedback)
  }

  /**
   * `loadLesson(idx)`: a new game at the lesson's position, an empty move list,
   * the hint as feedback, and free play exactly when the lesson has no solution.
   * `None` models the TypeError of reading a lesson that does not exist.
   */
  function LoadLesson(rules: Rules, s: Session, idx: int): (r: Option<Session>)
    ensures r.Some? <==> 0 <= idx < |Table|
    ensures r.Some? ==> r.value.history == [] && History(r.value.game) == []
    ensures r.Some? ==> (r.value.allowAnyMove <==> Table[idx].solution.None?)
    ensures r.Some? ==> r.value.engine == s.engine && r.value.engineTimeMs == s.engineTimeMs
    ensures r.Some? && (Table[idx].fen == "" || Table[idx].fen == "start") ==> r.value.game == NewGame()
    ensures r.Some? && Table[idx].fen != "" && Table[idx].fen != "start" ==> r.value.game == LoadGame(rules, Table[idx].fen)
    ensures r.Some? && Table[idx].hint != "" ==> r.value.feedback == "Hint: " + Table[idx].hint
    ensures r.Some? && Table[idx].hint == "" ==> r.value.feedback == ""
  {
    if !(0 <= idx < |Table|) then None
    else
      var lesson := Table[idx];
      var game := if lesson.fen != "" && lesson.fen != "start" then LoadGame(rules, lesson.fen) else NewGame();
      var hint := if lesson.hint != "" then "Hint: " + lesson.hint else "";
      Some(s.(game := game, history := [], feedback := hint, allowAnyMove := lesson.solution.None?))
  }

  /**
   * The lesson check for a legal move `tried`, made in `g`. The expected step is
   * the solution entry at the game's history length. If the library can play it
   * from the current position, the squares must agree; otherwise the SAN strings
   * must, so a missing step refuses every move.
   */
  function LessonCheck(rules: Rules, g: Game, solution: seq<string>, tried: MoveResult): (r: Outcome)
    ensures r == Accepted || r == WrongLessonMove || r == SolutionMismatch
    // no step left: every move is refused
    ensures |History(g)| >= |solution| ==> r == SolutionMismatch
    // a step the library can play from here: judged by its squares alone
    ensures |History(g)| < |solution| && rules.move(g.fen, San(solution[|History(g)|])).Some?
            && SquarePair(rules.move(g.fen, San(solution[|History(g)|])).value) != "" ==>
      (r == Accepted <==> SquarePair(rules.move(g.fen, San(solution[|History(g)|])).value) == SquarePair(tried))
    // a step it cannot play: judged by SAN alone
    ensures |History(g)| < |solution| && rules.move(g.fen, San(solution[|History(g)|])).None? ==>
      (r == Accepted <==> tried.san == solution[|History(g)|])
    // which refusal: a square mismatch against a playable step is the wrong-move refusal ...
    ensures var n := |History(g)|;
      r == WrongLessonMove <==>
        && n < |solution| && rules.move(g.fen, San(solution[n])).Some?
        && SquarePair(rules.move(g.fen, San(solution[n])).value) != ""
        && SquarePair(rules.move(g.fen, San(solution[n])).value) != SquarePair(tried)
    // ... and any other refusal is the SAN mismatch
    ensures var n := |History(g)|;
      r == SolutionMismatch <==>
        && !(n < |solution| && rules.move(g.fen, San(solution[n])).Some?
             && SquarePair(rules.move(g.fen, San(solution[n])).value) != "")
        && !(n < |solution| && tried.san == solution[n])
  {
    var expected := SolutionStep(solution, |History(g)|);
    var expectedUci :=
      match expected
      case None => ""
      case Some(san) =>
        match rules.move(g.fen, San(san))
        case Some(m) => SquarePair(m)
        case None => "";
    if expectedUci != "" && expectedUci != SquarePair(tried) then WrongLessonMove
    else if expectedUci == "" && (expected.None? || tried.san != expected.value) then SolutionMismatch
    else Accepted
  }

  /** The outcome of an accepted move: complete when the game's history is as long as the first lesson's solution. */
  function Completion(g: Game): (r: Outcome)
    ensures r == LessonComplete || r == Accepted
    ensures r == LessonComplete <==> |History(g)| == |CheckedLesson().solution.value|
  {
    var lesson := Table[0];
    if lesson.solution.Some? && |History(g)| == |lesson.solution.value| then LessonComplete else Accepted
  }

  /** `onDrop(src, dst)`. */
  function OnDrop(rules: Rules, s: Session, src: string, dst: string): (d: Drop)
    ensures !d.outcome.Ok() ==> d.session == s.(feedback := d.session.feedback)
    ensures d.outcome.Ok() ==>
      var played := Move(rules, s.game, Coords(src, dst, PromotionPiece));
      && played.Some?
      && d.session.game == played.value.game
      && d.session.history == s.history + [played.value.result.san]
    ensures d.session.allowAnyMove == s.allowAnyMove && d.session.engineTimeMs == s.engineTimeMs
    ensures d.session.engine.worker == s.engine.worker
    ensures StatusAgrees(s.engine) ==> StatusAgrees(d.session.engine)
    ensures d.outcome == IllegalMove ==> d.session.feedback == IllegalMessage
    ensures d.outcome == WrongLessonMove ==> d.session.feedback == WrongMoveMessage
    ensures d.outcome == SolutionMismatch ==> d.session.feedback == MismatchMessage
    ensures d.outcome == LessonComplete ==> d.session.feedback == CompleteMessage
    ensures d.outcome == Accepted ==> d.session.feedback == (if s.engine.worker then "" else UnavailableMessage)
  {
    var lesson := CheckedLesson();
    var request := Coords(src, dst, PromotionPiece);
    match Move(rules, Copy(s.game), request)
    case None => Drop(IllegalMove, s.(feedback := IllegalMessage))
    case Some(trial) =>
      var verdict :=
        if lesson.solution.Some? && !s.allowAnyMove then LessonCheck(rules, s.game, lesson.solution.value, trial.result)
        else Accepted;
      if verdict == WrongLessonMove then Drop(verdict, s.(feedback := WrongMoveMessage))
      else if verdict == SolutionMismatch then Drop(verdict, s.(feedback := MismatchMessage))
      else
        match Move(rules, s.game, request)
        case None => Drop(IllegalMove, s.(feedback := IllegalMessage))
        case Some(played) =>
          var applied := s.(game := played.game, history := s.history + [played.result.san], feedback := "");
          var asked := AskEngine(applied, Some(played.game.fen), ClampMoveTime(s.engineTimeMs));
          var outcome := Completion(played.game);
          Drop(outcome, if outcome == LessonComplete then asked.(feedback := CompleteMessage) else asked)
  }

  /** `undoMove()`: one ply taken back from the game and one entry from the move list, if any. */
  function UndoMove(s: Session): (r: Session)
    ensures r.game == Undo(s.game)
    ensures s.history == [] ==> r.history == []
    ensures s.history != [] ==> r.history == s.history[..|s.history| - 1]
    ensures r.engine == s.engine && r.allowAnyMove == s.allowAnyMove && r.feedback == UndoMessage
  {
    var popped := if s.history == [] then [] else s.history[..|s.history| - 1];
    s.(game := Undo(s.game), history := popped, feedback := UndoMessage)
  }

  /** The "Deep Analyze" button: `askEngine(null, 300)` on the current position. */
  function DeepAnalyze(s: Session): (r: Session)
    ensures r.game == s.game && r.history == s.history && r.allowAnyMove == s.allowAnyMove
    ensures s.engine.worker ==> r.engine.posted == s.engine.posted + [PositionCommand(s.game.fen), GoCommand(DeepMoveTimeMs)]
    ensures s.engine.worker ==> r.engine.status == Thinking
    ensures s.engine.worker ==> r.engine.eval.None? && r.engine.pv.None? && r.feedback == s.feedback
    ensures !s.engine.worker ==> r.engine == s.engine && r.feedback == UnavailableMessage
  {
    AskEngine(s, None, DeepMoveTimeMs)
  }

  /** The free-play toggle. */
  function ToggleFreePlay(s: Session): (r: Session)
    ensures r.allowAnyMove != s.allowAnyMove
    ensures r == s.(allowAnyMove := r.allowAnyMove)
  {
    s.(allowAnyMove := !s.allowAnyMove)
  }

  /** A response line from the worker; lines only arrive while a worker exists. */
  function ReceiveLine(s: Session, msg: string): (r: Session)
    ensures r.game == s.game && r.history == s.history && r.allowAnyMove == s.allowAnyMove
    ensures r.engine.posted == s.engine.posted
    ensures s.engine.worker ==> Effect(r.engine, r.feedback) == HandleEngineMessage(s.engine, s.feedback, msg)
    ensures !s.engine.worker ==> r == s
  {
    if !s.engine.worker then s
    else
      var effect := HandleEngineMessage(s.engine, s.feedback, msg);
      s.(engine := effect.engine, feedback := effect.feedback)
  }

  /**
   * The component's mount effects, in declaration order: load the first lesson,
   * then create the worker (`created` says whether that succeeded).
   */
  function Boot(rules: Rules, created: bool): (s: Session)
    ensures s.history == [] && History(s.game) == []
    ensures !s.allowAnyMove
    ensures s.game == NewGame()
    ensures created ==> s.feedback == "Hint: " + Table[0].hint
    ensures created ==> s.engine.status == Ready && s.engine.posted == [HandshakeCommand]
    ensures !created ==> s.engine.status == Missing && s.engine.posted == [] && s.feedback == MissingMessage
  {
    var loaded := LoadLesson(rules, Fresh, 0).value;
    var effect := Mount(loaded.engine, loaded.feedback, created);
    loaded.(engine := effect.engine, feedback := effect.feedback)
  }

  /** The component's events after mounting, plus loading any lesson. */
  datatype Event =
    | PieceDrop(src: string, dst: string)
    | UndoPressed
    | AnalyzePressed
    | FreePlayToggled
    | EngineLine(msg: string)
    | LessonLoaded(idx: int)

  function Step(rules: Rules, s: Session, ev: Event): (r: Session)
    ensures r.engineTimeMs == s.engineTimeMs
    ensures r.engine.worker == s.engine.worker
    ensures ev.AnalyzePressed? || ev.FreePlayToggled? || ev.EngineLine? ==> r.game == s.game && r.history == s.history
  {
    match ev
    case PieceDrop(src, dst) => OnDrop(rules, s, src, dst).session
    case UndoPressed => UndoMove(s)
    case AnalyzePressed => DeepAnalyze(s)
    case FreePlayToggled => ToggleFreePlay(s)
    case EngineLine(msg) => ReceiveLine(s, msg)
    case LessonLoaded(idx) => LoadLesson(rules, s, idx).GetOr(s)
  }

  /** The displayed move list is the game's history, and the status matches the worker's presence. */
  predicate Consistent(s: Session) {
    s.history == History(s.game) && StatusAgrees(s.engine)
  }
}

=== FILE: tutor_properties.dfy ===
/** Properties of the tutor's handlers: atomic refusal, step-indexed lesson checking, completion, undo, and the session invariant. */
module TutorProperties {
  import opened Maybe
  import opened Chess
  import opened Lessons
  import opened EngineSession
  import opened Tutor

  /** The solution every drop is checked against. */
  function Solution(): seq<string> {
    CheckedLesson().solution.value
  }

  /** What the library makes of the drop itself. */
  function Tried(rules: Rules, s: Session, src: string, dst: string): Option<MoveResult> {
    rules.move(s.game.fen, Coords(src, dst, PromotionPiece))
  }

  /** A drop is refused as illegal exactly when the library refuses it on the current position. */
  lemma IllegalDropRefused(rules: Rules, s: Session, src: string, dst: string)
    ensures OnDrop(rules, s, src, dst).outcome == IllegalMove <==> Tried(rules, s, src, dst).None?
  {
    DryRunAgrees(rules, s.game, Coords(src, dst, PromotionPiece));
  }

  /**
   * Outside free play, a legal drop is accepted exactly when it matches the
   * solution step at the game's history length: by squares when the library can
   * play that step from the current position, and otherwise by SAN, so that no
   * move is accepted once the solution is exhausted.
   */
  lemma LessonStepMatching(rules: Rules, s: Session, src: string, dst: string)
    requires !s.allowAnyMove && Tried(rules, s, src, dst).Some?
    ensures var n := |History(s.game)|;
      var tried := Tried(rules, s, src, dst).value;
      var ok := OnDrop(rules, s, src, dst).outcome.Ok();
      if n < |Solution()| && rules.move(s.game.fen, San(Solution()[n])).Some?
         && SquarePair(rules.move(s.game.fen, San(Solution()[n])).value) != ""
      then ok <==> SquarePair(rules.move(s.game.fen, San(Solution()[n])).value) == SquarePair(tried)
      else ok <==> n < |Solution()| && tried.san == Solution()[n]
    ensures |History(s.game)| >= |Solution()| ==> OnDrop(rules, s, src, dst).outcome == SolutionMismatch
    // the refusal shown: the wrong-move message for a square mismatch, the mismatch message otherwise
    ensures var n := |History(s.game)|;
      var tried := Tried(rules, s, src, dst).value;
      var outcome := OnDrop(rules, s, src, dst).outcome;
      if n < |Solution()| && rules.move(s.game.fen, San(Solution()[n])).Some?
         && SquarePair(rules.move(s.game.fen, San(Solution()[n])).value) != ""
      then outcome != SolutionMismatch
        && (outcome == WrongLessonMove <==> SquarePair(rules.move(s.game.fen, San(Solution()[n])).value) != SquarePair(tried))
      else outcome != WrongLessonMove && (outcome == SolutionMismatch <==> !(n < |Solution()| && tried.san == Solution()[n]))
    // with ordinary two-letter squares, the comparison is of the from and to squares
    ensures var n := |History(s.game)|;
      var tried := Tried(rules, s, src, dst).value;
      n < |Solution()| && rules.move(s.game.fen, San(Solution()[n])).Some?
      && |rules.move(s.game.fen, San(Solution()[n])).value.from| == 2 && |tried.from| == 2 ==>
      var expected := rules.move(s.game.fen, San(Solution()[n])).value;
      (OnDrop(rules, s, src, dst).outcome.Ok() <==> expected.from == tried.from && expected.to == tried.to)
  {
    DryRunAgrees(rules, s.game, Coords(src, dst, PromotionPiece));
    var n := |History(s.game)|;
    var tried := Tried(rules, s, src, dst).value;
    if n < |Solution()| && rules.move(s.game.fen, San(Solution()[n])).Some? {
      var expected := rules.move(s.game.fen, San(Solution()[n])).value;
      if |expected.from| == 2 && |tried.from| == 2 {
        SquarePairComparesSquares(expected, tried);
      }
    }
  }

  /** In free play every legal drop is accepted. */
  lemma FreePlayAcceptsLegal(rules: Rules, s: Session, src: string, dst: string)
    requires s.allowAnyMove && Tried(rules, s, src, dst).Some?
    ensures OnDrop(rules, s, src, dst).outcome.Ok()
  {
    DryRunAgrees(rules, s.game, Coords(src, dst, PromotionPiece));
  }

  /**
   * An accepted drop completes the lesson exactly when the game's history is
   * then as long as the first lesson's solution, in free play as well.
   */
  lemma CompletionAtSolutionLength(rules: Rules, s: Session, src: string, dst: string)
    requires OnDrop(rules, s, src, dst).outcome.Ok()
    ensures var d := OnDrop(rules, s, src, dst);
      d.outcome == LessonComplete <==> |History(d.session.game)| == |Solution()|
  {
  }

  /**
   * An accepted drop asks the engine, when there is one, to search the new
   * position for the clamped time: 120 ms as the component is set up.
   */
  lemma AcceptedDropAsksEngine(rules: Rules, s: Session, src: string, dst: string)
    requires s.engine.worker && OnDrop(rules, s, src, dst).outcome.Ok()
    ensures var e := OnDrop(rules, s, src, dst).session.engine;
      && e.status == Thinking && e.eval.None? && e.pv.None?
      && e.posted == s.engine.posted +
        [PositionCommand(OnDrop(rules, s, src, dst).session.game.fen), GoCommand(ClampMoveTime(s.engineTimeMs))]
    ensures s.engineTimeMs == DefaultMoveTimeMs ==> ClampMoveTime(s.engineTimeMs) == 120
  {
  }

  /** Undoing an accepted drop restores the game and the move list it was made on. */
  lemma UndoRevertsDrop(rules: Rules, s: Session, src: string, dst: string)
    requires OnDrop(rules, s, src, dst).outcome.Ok()
    ensures UndoMove(OnDrop(rules, s, src, dst).session).game == s.game
    ensures UndoMove(OnDrop(rules, s, src, dst).session).history == s.history
  {
    UndoAfterMove(rules, s.game, Coords(src, dst, PromotionPiece));
    var h := s.history + [OnDrop(rules, s, src, dst).session.history[|s.history|]];
    assert h[..|h| - 1] == s.history;
  }

  /**
   * The first lesson is the one every drop is checked against, whichever lesson
   * was loaded: after loading the fork lesson, whose first step is "d5", the
   * step expected first is still "e4", so a legal drop on other squares than
   * the library's reading of "e4" is refused.
   */
  lemma CheckIgnoresLoadedLesson(rules: Rules, s: Session, src: string, dst: string)
    requires LoadLesson(rules, s, 2).Some?
    requires var l := LoadLesson(rules, s, 2).value;
      && Tried(rules, l, src, dst).Some?
      && rules.move(l.game.fen, San("e4")).Some?
      && SquarePair(rules.move(l.game.fen, San("e4")).value) != ""
      && SquarePair(rules.move(l.game.fen, San("e4")).value) != SquarePair(Tried(rules, l, src, dst).value)
    ensures Table[2].solution.value[0] == "d5"
    ensures OnDrop(rules, LoadLesson(rules, s, 2).value, src, dst).outcome == WrongLessonMove
  {
    var l := LoadLesson(rules, s, 2).value;
    DryRunAgrees(rules, l.game, Coords(src, dst, PromotionPiece));
    assert |History(l.game)| == 0;
  }

  /** After loading the lesson without a solution, every legal drop is accepted. */
  lemma OpenLessonAcceptsLegal(rules: Rules, s: Session, src: string, dst: string)
    requires LoadLesson(rules, s, 1).Some?
    requires Tried(rules, LoadLesson(rules, s, 1).value, src, dst).Some?
    ensures OnDrop(rules, LoadLesson(rules, s, 1).value, src, dst).outcome.Ok()
  {
    FreePlayAcceptsLegal(rules, LoadLesson(rules, s, 1).value, src, dst);
  }

  /** Drops made one after another; the outcomes in order and the final state. */
  function PlayDrops(rules: Rules, s: Session, drops: seq<(string, string)>): (r: (Session, seq<Outcome>))
    ensures |r.1| == |drops|
    decreases |drops|
  {
    if drops == [] then (s, [])
    else
      var d := OnDrop(rules, s, drops[0].0, drops[0].1);
      var rest := PlayDrops(rules, d.session, drops[1..]);
      (rest.0, [d.outcome] + rest.1)
  }

  /**
   * The drops follow the script from `fen`: for each step, the library plays
   * the step's SAN from the current position, the drop is on its squares, and
   * playing those squares (promoting to a queen) gives a move on the same squares.
   */
  predicate FollowsScript(rules: Rules, fen: string, script: seq<string>, drops: seq<(string, string)>)
    decreases |script|
  {
    && |script| == |drops|
    && (script != [] ==>
      match rules.move(fen, San(script[0]))
      case None => false
      case Some(m) =>
        && SquarePair(m) != ""
        && drops[0] == (m.from, m.to)
        && match rules.move(fen, Coords(m.from, m.to, PromotionPiece))
           case None => false
           case Some(p) => SquarePair(p) == SquarePair(m) && FollowsScript(rules, p.after, script[1..], drops[1..]))
  }

  /**
   * Playing the rest of the solution, step by step, from a game already `k`
   * steps in: every drop is accepted, and only the one that reaches the
   * solution's length completes the lesson.
   */
  lemma {:induction false} ReplaySolution(rules: Rules, s: Session, drops: seq<(string, string)>)
    requires !s.allowAnyMove
    requires |History(s.game)| <= |Solution()|
    requires FollowsScript(rules, s.game.fen, Solution()[|History(s.game)|..], drops)
    ensures var outcomes := PlayDrops(rules, s, drops).1;
      forall i | 0 <= i < |outcomes| ::
        outcomes[i] == (if |History(s.game)| + i + 1 == |Solution()| then LessonComplete else Accepted)
    ensures |History(PlayDrops(rules, s, drops).0.game)| == |Solution()|
    decreases |drops|
  {
    var k := |History(s.game)|;
    var script := Solution()[k..];
    if drops != [] {
      var m := rules.move(s.game.fen, San(script[0])).value;
      var p := rules.move(s.game.fen, Coords(m.from, m.to, PromotionPiece)).value;
      assert script[0] == Solution()[k];
      LessonStepMatching(rules, s, m.from, m.to);
      var d := OnDrop(rules, s, m.from, m.to);
      assert d.outcome.Ok();
      CompletionAtSolutionLength(rules, s, m.from, m.to);
      assert d.session.game.fen == p.after;
      assert |History(d.session.game)| == k + 1;
      assert Solution()[k + 1..] == script[1..];
      ReplaySolution(rules, d.session, drops[1..]);
      var outcomes := PlayDrops(rules, s, drops).1;
      var later := PlayDrops(rules, d.session, drops[1..]).1;
      assert outcomes == [d.outcome] + later;
      forall i | 0 <= i < |outcomes|
        ensures outcomes[i] == (if k + i + 1 == |Solution()| then LessonComplete else Accepted)
      {
        if i > 0 {
          assert outcomes[i] == later[i - 1];
        }
      }
    }
  }

  /**
   * The scholar's-mate lesson played from the start: the first six drops are
   * accepted and the seventh completes the lesson.
   */
  lemma ScholarsMate(rules: Rules, created: bool, drops: seq<(string, string)>)
    requires FollowsScript(rules, StartFen, Solution(), drops)
    ensures var outcomes := PlayDrops(rules, Boot(rules, created), drops).1;
      && |outcomes| == 7
      && (forall i | 0 <= i < 6 :: outcomes[i] == Accepted)
      && outcomes[6] == LessonComplete
  {
    var s := Boot(rules, created);
    assert s.game.fen == StartFen;
    assert Solution()[0..] == Solution();
    ReplaySolution(rules, s, drops);
  }

  /** On a fresh lesson, a legal first drop on other squares than the library's reading of "e4" is refused and changes no state. */
  lemma WrongFirstMove(rules: Rules, created: bool, src: string, dst: string)
    requires var s := Boot(rules, created);
      && Tried(rules, s, src, dst).Some?
      && rules.move(s.game.fen, San("e4")).Some?
      && SquarePair(rules.move(s.game.fen, San("e4")).value) != ""
      && SquarePair(rules.move(s.game.fen, San("e4")).value) != SquarePair(Tried(rules, s, src, dst).value)
    ensures var s := Boot(rules, created);
      var d := OnDrop(rules, s, src, dst);
      d.outcome == WrongLessonMove && d.session.game == s.game && d.session.history == []
  {
    var s := Boot(rules, created);
    LessonStepMatching(rules, s, src, dst);
  }

  /** Every handler keeps the move list equal to the game's history and the status in line with the worker. */
  lemma StepPreservesConsistent(rules: Rules, s: Session, ev: Event)
    requires Consistent(s)
    ensures Consistent(Step(rules, s, ev))
  {
    match ev
    case UndoPressed =>
      if s.game.plies != [] {
        assert s.history != [];
      }
    case _ =>
  }

  /** The mounted component starts consistent. */
  lemma BootConsistent(rules: Rules, created: bool)
    ensures Consistent(Boot(rules, created))
  {
  }

  /** Without a worker nothing reaches the engine state: no command is posted and the status stays. */
  lemma NoWorkerNoEngineChange(rules: Rules, s: Session, ev: Event)
    requires !s.engine.worker
    ensures Step(rules, s, ev).engine == s.engine
  {
  }

  /** The status becomes `thinking` only through a request: an accepted drop or the analysis button. */
  lemma ThinkingOnlyOnRequest(rules: Rules, s: Session, ev: Event)
    requires s.engine.status != Thinking && Step(rules, s, ev).engine.status == Thinking
    ensures ev.AnalyzePressed? || (ev.PieceDrop? && OnDrop(rules, s, ev.src, ev.dst).outcome.Ok())
  {
  }
}

=== FILE: uci.dfy ===
/**
 * Parsing of the analysis engine's response lines (Universal Chess Interface),
 * exactly as the tutor's line handler matches them: the `bestmove` marker with
 * `split(' ')[1]`, the regular expression `score (cp|mate) (-?\d+)` and the
 * regular expression `pv (.+)$`, each taking its leftmost match.
 */
module Uci {
  import opened Maybe
  import opened Text

  datatype ScoreKind = Cp | Mate

  datatype Score = Score(kind: ScoreKind, value: int)

  /** Sentinel magnitude that stands for a forced mate. */
  const MateScore: int := 99999

  /** `msg.split(' ')[1]`: the field between the first and second space; `None` is `undefined`. */
  function SecondField(msg: string): (r: Option<string>)
    ensures r.None? <==> !Contains(msg, " ")
    ensures r.Some? ==> !Contains(r.value, " ")
    ensures r.Some? ==>
      var i := IndexOf(msg, " ", 0).value;
      && i + 1 + |r.value| <= |msg|
      && msg[i + 1..i + 1 + |r.value|] == r.value
      && (i + 1 + |r.value| == |msg| || msg[i + 1 + |r.value|] == ' ')
  {
    match IndexOf(msg, " ", 0)
    case None => None
    case Some(i) =>
      var rest := msg[i + 1..];
      match IndexOf(rest, " ", 0)
      case None => Some(rest)
      case Some(k) =>
        assert rest[k..k + 1] == " ";
        SliceOfSuffix(msg, i + 1, k);
        assert forall j | 0 <= j < k :: rest[j] != ' ' by {
          forall j | 0 <= j < k ensures rest[j] != ' ' {
            assert !OccursAt(rest, " ", j);
            assert rest[j..j + 1] == [rest[j]];
          }
        }
        NoSpaceNotContains(rest[..k]);
        Some(rest[..k])
  }

  /** A prefix of a suffix is a slice. */
  lemma SliceOfSuffix(s: string, a: nat, k: nat)
    requires a + k <= |s|
    ensures s[a..][..k] == s[a..a + k]
  {
  }

  lemma NoSpaceNotContains(t: string)
    requires forall j | 0 <= j < |t| :: t[j] != ' '
    ensures !Contains(t, " ")
  {
    forall j: nat | j < |t|
      ensures !OccursAt(t, " ", j)
    {
      assert t[j..j + 1] == [t[j]];
    }
  }

  /** The text the tutor appends to its feedback for a `bestmove` line. */
  function BestMoveText(msg: string): string {
    "\nEngine bestmove: " + SecondField(msg).GetOr("undefined")
  }

  /** The signed integer `-?\d+` matches at index `q` (greedy), if it matches there. */
  function SignedAt(s: string, q: nat): (r: Option<int>)
    ensures r.Some? <==> (q < |s| && IsDigit(s[q])) || (q + 1 < |s| && s[q] == '-' && IsDigit(s[q + 1]))
    ensures r.Some? && r.value < 0 ==> q < |s| && s[q] == '-'
    ensures r.Some? && s[q] == '-' ==> r.value <= 0
  {
    if q + 1 < |s| && s[q] == '-' && IsDigit(s[q + 1]) then
      var magnitude: int := DigitsValue(s[q + 1..DigitRunEnd(s, q + 1)]);
      Some(-magnitude)
    else if q < |s| && IsDigit(s[q]) then
      Some(DigitsValue(s[q..DigitRunEnd(s, q)]))
    else
      None
  }

  /** The keyword the engine writes for a score kind. */
  function KindWord(k: ScoreKind): string {
    match k
    case Cp => "cp"
    case Mate => "mate"
  }

  /** The capture of `score (cp|mate) (-?\d+)` when the match starts at index `i`. */
  function ScoreAt(s: string, i: nat): (r: Option<Score>)
    ensures r.Some? ==> OccursAt(s, "score ", i) && OccursAt(s, KindWord(r.value.kind) + " ", i + 6)
    ensures r.Some? ==> SignedAt(s, i + 7 + |KindWord(r.value.kind)|) == Some(r.value.value)
    ensures OccursAt(s, "score ", i) && OccursAt(s, "cp ", i + 6) && SignedAt(s, i + 9).Some? ==>
      r == Some(Score(Cp, SignedAt(s, i + 9).value))
    ensures OccursAt(s, "score ", i) && OccursAt(s, "mate ", i + 6) && SignedAt(s, i + 11).Some? ==>
      r == Some(Score(Mate, SignedAt(s, i + 11).value))
  {
    assert OccursAt(s, "mate ", i + 6) ==> s[i + 6] == 'm';
    if !OccursAt(s, "score ", i) then None
    else if OccursAt(s, "cp ", i + 6) then
      match SignedAt(s, i + 9)
      case Some(v) => Some(Score(Cp, v))
      case None => None
    else if OccursAt(s, "mate ", i + 6) then
      match SignedAt(s, i + 11)
      case Some(v) => Some(Score(Mate, v))
      case None => None
    else None
  }

  /** Index of the leftmost match of the score pattern at or after `from`. */
  function FirstScoreIndex(s: string, from: nat): (r: Option<nat>)
    decreases |s| - from
    ensures r.Some? ==> from <= r.value < |s| && ScoreAt(s, r.value).Some?
    ensures r.Some? ==> forall j | from <= j < r.value :: ScoreAt(s, j).None?
    ensures r.None? ==> forall j | from <= j :: ScoreAt(s, j).None?
  {
    if from >= |s| then None
    else if ScoreAt(s, from).Some? then Some(from)
    else FirstScoreIndex(s, from + 1)
  }

  lemma FirstScoreIs(s: string, from: nat, k: nat)
    requires from <= k && ScoreAt(s, k).Some?
    requires forall j | from <= j < k :: ScoreAt(s, j).None?
    ensures FirstScoreIndex(s, from) == Some(k)
    decreases k - from
  {
    if from < k {
      FirstScoreIs(s, from + 1, k);
    }
  }

  /** `msg.match(/score (cp|mate) (-?\d+)/)`: the kind and the parsed value of the leftmost match. */
  function ScoreMatch(msg: string): (r: Option<Score>)
    ensures r.None? <==> forall j: nat :: ScoreAt(msg, j).None?
    ensures r.Some? ==> FirstScoreIndex(msg, 0).Some? && r == ScoreAt(msg, FirstScoreIndex(msg, 0).value)
  {
    match FirstScoreIndex(msg, 0)
    case Some(i) => ScoreAt(msg, i)
    case None => None
  }

  /** What the JavaScript `.` refuses to match. */
  predicate IsLineTerminator(c: char) {
    c == '\n' || c == '\r' || c == '\U{2028}' || c == '\U{2029}'
  }

  predicate NoLineTerminator(s: string) {
    forall k | 0 <= k < |s| :: !IsLineTerminator(s[k])
  }

  /** `pv (.+)$` matches starting at index `i`: `.+` must run to the end of the input. */
  predicate PvAt(s: string, i: nat) {
    OccursAt(s, "pv ", i) && i + 3 < |s| && NoLineTerminator(s[i + 3..])
  }

  /** Index of the leftmost match of the PV pattern at or after `from`. */
  function FirstPvIndex(s: string, from: nat): (r: Option<nat>)
    decreases |s| - from
    ensures r.Some? ==> from <= r.value && PvAt(s, r.value)
    ensures r.Some? ==> forall j | from <= j < r.value :: !PvAt(s, j)
    ensures r.None? ==> forall j | from <= j :: !PvAt(s, j)
  {
    if from >= |s| then None
    else if PvAt(s, from) then Some(from)
    else FirstPvIndex(s, from + 1)
  }

  lemma FirstPvIs(s: string, from: nat, k: nat)
    requires from <= k && PvAt(s, k)
    requires forall j | from <= j < k :: !PvAt(s, j)
    ensures FirstPvIndex(s, from) == Some(k)
  {
  }

  lemma FirstPvNone(s: string, from: nat)
    requires forall j | from <= j :: !PvAt(s, j)
    ensures FirstPvIndex(s, from) == None
  {
  }

  lemma NoLineTerminatorSuffix(s: string, i: nat)
    requires i <= |s| && NoLineTerminator(s)
    ensures NoLineTerminator(s[i..])
  {
    assert forall k | 0 <= k < |s| - i :: s[i..][k] == s[i + k];
  }

  /** `msg.match(/pv (.+)$/)[1]`: the text after the matched `pv `. */
  function PvMatch(msg: string): (r: Option<string>)
    ensures r.None? <==> forall j: nat :: !PvAt(msg, j)
    ensures r.Some? ==> FirstPvIndex(msg, 0).Some? && r.value == msg[FirstPvIndex(msg, 0).value + 3..]
    ensures r.Some? ==> r.value != [] && NoLineTerminator(r.value)
  {
    match FirstPvIndex(msg, 0)
    case Some(i) => Some(msg[i + 3..])
    case None => None
  }

  /** The centipawn value the tutor stores for a score: mate scores become a signed sentinel. */
  function ScoreToCp(sc: Score): (cp: int)
    ensures sc.kind == Mate ==> (cp == MateScore <==> sc.value > 0)
    ensures sc.kind == Mate ==> (cp == -MateScore <==> sc.value <= 0)
    ensures sc.kind == Cp ==> cp == sc.value
  {
    match sc.kind
    case Cp => sc.value
    case Mate => if sc.value > 0 then MateScore else -MateScore
  }

  /** The verdict labels, from least to most severe. */
  const Labels: seq<string> := ["Good move", "Inaccuracy", "Mistake", "Blunder"]

  /** Centipawn loss at which each more severe label starts. */
  const Thresholds: seq<int> := [50, 150, 300]

  const UnknownLabel: string := "—"

  function Abs(x: int): nat {
    if x < 0 then -x else x
  }

  /** How many thresholds a magnitude reaches: the index of its label. */
  function Band(a: nat): (b: nat)
    ensures b < |Labels|
    ensures forall k | 0 <= k < |Thresholds| :: (k < b <==> Thresholds[k] <= a)
  {
    if a < 50 then 0 else if a < 150 then 1 else if a < 300 then 2 else 3
  }

  /** The verdict shown for an evaluation; `None` stands for `null`/`undefined`. */
  function CpToLabel(cp: Option<int>): (verdict: string)
    ensures cp.None? <==> verdict == UnknownLabel
    ensures cp.Some? ==> verdict == Labels[Band(Abs(cp.value))]
  {
    match cp
    case None => "—"
    case Some(v) =>
      var a := Abs(v);
      if a < 50 then "Good move"
      else if a < 150 then "Inaccuracy"
      else if a < 300 then "Mistake"
      else "Blunder"
  }
}
